=== FILE: README.md ===
# project-board in Dafny

A model of the core of **project-board** (`pb`). This is a command-line kanban
board that lives inside a git repository. Tasks move through the columns
Backlog, To Do, Doing, Review and Done. `start` creates and checks out a
`feature/{id}-{slug}` branch. `done` commits and pushes. `submit` pushes and
asks GitHub for a pull request. Every change is recorded in an append-only
activity log.

The model has these modules:

- **Outcome**: `Option`, `Result` and the errors the commands end with.
- **Text**: the ASCII character classes, `to_lowercase`, `replace`, `split`,
  and decimal printing and parsing of ids.
- **Sorting**: a stable insertion sort. It stands for the `ORDER BY` clauses.
- **Db**: the SQLite store as an immutable value. Each query is a function
  from store to store. Every task sits in an existing column, every comment
  belongs to an existing task, and the rows of the append-only tables are
  numbered in insertion order (`Valid`).
- **Branch**: the slug and branch name that `start` derives from a task.
- **Csv**: `escape_csv`, and an RFC 4180 reader (section 2, rules 5-7) that
  undoes it.
- **GitHub**: `extract_github_info` and the URL that `create_pull_request`
  answers with.
- **Commands**: `init`, `add`, `move`, `comment`, `idea`, `promote`, `start`,
  `done`, `submit` and `review`. Each is a pure function of:
  - the store;
  - what git, the remote and the pull-request service answer (`Env`);
  - the time `now`.

  Each command returns a `Reply` holding the new store, the status, and the
  ordered trace of external calls and table writes. Every command guarantees
  `Settled`:
  - the store stays valid;
  - every git and pull-request call comes before the first write;
  - tables the trace does not write are unchanged;
  - no task is lost, and no recorded branch or pull request is cleared;
  - the log grows by exactly one entry on a logged success, and otherwise not
    at all;
  - a git failure leaves the store untouched.
- **Export**: the CSV lines of `export --format csv`.
- **Board**: the state of the interactive board (`App`) and its key handling.

Git, the pull-request client, `GITHUB_TOKEN`, `git config user.name`, the
working directory and the clock are parameters, never effects.

In these places the model follows what the code does:

- For a remote that is not on GitHub, or no remote at all, `submit` records
  the text `Manual PR needed for branch: {b}`. It does not record a compare
  URL.
- When the pull-request request fails, `submit` records a compare URL whose
  owner and repository are the literal words `owner` and `repo`
  (`Commands.FailedPrUrl`).
- `start` writes the branch before it looks up the Doing column, so without a
  Doing column the error leaves the branch recorded
  (`Commands.StartWrites`).
- In the same way, `submit` without a Review column leaves the pull-request
  URL recorded.
- `submit` refuses a task only when it has no branch at all. An empty branch
  name would pass, but `start` never records one (`Branch.BranchNameShape`).

## Model

| member | source | states |
|---|---|---|
| Branch.SlugIsByChar | src/commands/mod.rs:241-246 | The three-stage slug (lower-case, spaces to hyphens, keep only alphanumerics and hyphens) equals a one-pass reading that maps each title character on its own. |
| Branch.SlugIsSlug | src/commands/mod.rs:241-246 | A slug holds only lower-case letters, digits and hyphens. It never holds a space or a slash. |
| Branch.SlugAppend | src/commands/mod.rs:241-246 | The slug of a concatenation is the concatenation of the slugs. |
| Branch.SlugIdempotent | src/commands/mod.rs:241-246 | Slugging a slug gives the same slug. |
| Branch.BranchNameExample | src/commands/mod.rs:241-247 | Task 1 titled "Fix login bug" gets branch `feature/1-fix-login-bug`. |
| Branch.BranchNameRoundTrip | src/commands/mod.rs:247 | The task id and the slug can be read back from a branch name. |
| Branch.BranchNameInjective | src/commands/mod.rs:247 | Two tasks with different ids never get the same branch. |
| Branch.BranchNameShape | src/commands/mod.rs:247 | A branch name starts with `feature/`, has no space and no further slash, and is never just the prefix. |
| Csv.EscapeField | src/commands/mod.rs:481-487 | A field without a comma, double quote or newline is unchanged. Any other field is wrapped in double quotes, with each inner double quote doubled. |
| Csv.QuotesArePaired | src/commands/mod.rs:481-487 | Inside an escaped field every double quote belongs to a doubled pair. So a lone quote can only be the closing one. |
| Csv.EscapeRoundTrip | src/commands/mod.rs:481-487 | Unescaping an escaped field gives back the original text. |
| Csv.ReadEscapedField | src/commands/mod.rs:481-487 | An escaped field followed by a comma or by the end of the line is read back exactly, and the reader stops at that separator. |
| Csv.RecordRoundTrip | src/commands/mod.rs:481-487 | Escaping every field and joining them with commas is undone by the record reader. Field content never spills into a neighbouring column. |
| GitHub.StripGitSuffix | src/github/mod.rs:61 | At most one trailing `.git` is removed. A path without it is kept as it is. |
| GitHub.OwnerAndRepo | src/github/mod.rs:61-65 | An owner and a repository come back exactly when the stripped path has one `/`. Neither holds a slash, and joined with `/` they give back the path. |
| GitHub.ExtractGitHubInfo | src/github/mod.rs:54-77 | Only `git@github.com:` and `https://github.com/` remotes are recognised. A recognised remote is the host, owner, `/`, repository and an optional `.git`. |
| GitHub.SshRoundTrip | src/github/mod.rs:58-65 | `git@github.com:{owner}/{repo}.git` parses to that owner and repository. |
| GitHub.HttpsRoundTrip | src/github/mod.rs:66-73 | `https://github.com/{owner}/{repo}.git` parses to that owner and repository. |
| GitHub.HttpsRoundTripBare | src/github/mod.rs:66-73 | Without `.git` an HTTPS remote also parses. The exception is a repository name that itself ends in `.git`, which is then taken for the suffix. |
| GitHub.SuffixStrippedOnce | src/github/mod.rs:61 | `repo.git.git` names the repository `repo.git`. |
| GitHub.WrongPartCount | src/github/mod.rs:54-77 | A path with more or fewer than one `/` is refused for both hosts. |
| GitHub.OtherRemotesRefused | src/github/mod.rs:54-77 | `http://`, `ssh://` and other hosts are not recognised. |
| GitHub.CreatePullRequest | src/github/mod.rs:15-39 | Never fails. Without a token it answers the compare URL `…/compare/{base}...{head}`; with one it answers `…/pull/123`. Both are under the repository's URL. |
| GitHub.PullRequestUrlNamesRepo | src/github/mod.rs:25-36 | The repository part of a pull-request URL parses back to the owner and repository it was made for. |
| GitHub.OpenPullRequest | src/github/mod.rs:15-39 | The placeholder client always answers a URL under the repository. A networked client's answer, or its failure, is passed through. |
| Db.CreateProject | src/db/mod.rs:78-89 | Appends one project with the next row id. Nothing else changes. |
| Db.InsertColumns | src/db/mod.rs:113-126 | Inserts the columns in the given order with consecutive row ids, and returns exactly the inserted rows. |
| Db.CreateDefaultColumns | src/db/mod.rs:104-127 | Five columns named Backlog, To Do, Doing, Review and Done are appended, with orders 0 to 4. |
| Db.CreateDefaultColumnsKeepsValid | src/db/mod.rs:104-127 | The new columns get the row ids that follow the existing ones. |
| Db.DefaultColumnsOnEmpty | src/db/mod.rs:104-127 | On a board without columns the result is exactly the five defaults, with ids 1 to 5. |
| Db.GetColumns | src/db/mod.rs:129-138 | Returns a permutation of the columns, ascending by `order`. |
| Db.GetColumnsInOrder | src/db/mod.rs:129-138 | Columns stored in `order` order come back as stored. |
| Db.FreshColumnsInOrder | src/db/mod.rs:129-138 | On a board holding the defaults, they are listed Backlog, To Do, Doing, Review, Done. |
| Db.FindColumn | src/db/mod.rs:140-150 | A found column is a row with that name. Nothing is found exactly when no row has that name. |
| Db.FindColumnAt | src/db/mod.rs:140-150 | The row found for a name is its first row with that name. |
| Db.FreshColumnFound | src/db/mod.rs:105-111 | Each default column is the first row with its name. |
| Db.FreshColumnsByName | src/db/mod.rs:140-150 | On a board holding the defaults, each default is found by its name. |
| Db.ColumnByNameIsRow | src/db/mod.rs:140-150 | In a valid store a column found by name has an id that tasks may refer to. |
| Db.CreateTask | src/db/mod.rs:153-169 | The new task gets a fresh id and the given title, description and column. Both timestamps are `now`, and branch, pull request and assignee are empty. Only the tasks change. |
| Db.GetTask | src/db/mod.rs:171-181 | Finds a task exactly when its id is present, and returns that row. |
| Db.UpdateTaskColumn | src/db/mod.rs:204-216 | Changes only that task's column and `updated_at`. It is a no-op for a missing id. |
| Db.UpdateTaskColumnKeepsValid | src/db/mod.rs:204-216 | Moving a task to an existing column keeps the store valid. |
| Db.UpdateTaskBranch | src/db/mod.rs:218-230 | Changes only that task's branch and `updated_at`. It is a no-op for a missing id. |
| Db.UpdateTaskPr | src/db/mod.rs:232-244 | Changes only that task's pull-request URL and `updated_at`. It is a no-op for a missing id. |
| Db.GetTasks | src/db/mod.rs:183-202 | Lists each selected task once and no other task. The list is ordered by column, then newest first. |
| Db.ListingStep | src/db/mod.rs:183-202 | Inserting the next selected task into a partial listing keeps it complete, duplicate-free and ordered. |
| Db.CreateComment | src/db/mod.rs:247-261 | Appends one comment with the next row id. Nothing else changes. |
| Db.CreateCommentKeepsValid | src/db/mod.rs:247-261 | A comment on an existing task keeps every comment attached to a task. |
| Db.CreateIdea | src/db/mod.rs:276-288 | Adds one idea under a fresh id. Nothing else changes. |
| Db.GetIdea | src/db/mod.rs:290-300 | Finds an idea exactly when its id is present. |
| Db.DeleteIdea | src/db/mod.rs:313-319 | Removes that idea and no other row. It is a no-op for a missing id. |
| Db.LogActivity | src/db/mod.rs:322-334 | Appends exactly one entry stamped `now` and keeps all earlier entries. Nothing else changes. |
| Db.LimitCount | src/db/mod.rs:336-341 | `LIMIT n` lets through `min(n, available)` rows. A negative limit means no limit. |
| Db.GetActivityLog | src/db/mod.rs:336-347 | Returns at most the limit (50 by default), newest first, taken from the log. No entry left out is newer than one returned. |
| Db.NewestPrefix | src/db/mod.rs:340 | A prefix of a newest-first ordering holds the newest entries. |
| Commands.InitBoard | src/commands/mod.rs:10-55 | `init` outside a repository is a git failure, and in an initialised repository it is refused. Otherwise the board holds the five default columns, one project named after the directory (or `project`), and the single log entry `project_initialized`. |
| Commands.InitialisedValid | src/commands/mod.rs:34-49 | The initialised board satisfies the store's invariants. |
| Commands.InitialisedColumns | src/commands/mod.rs:34-35 | A fresh board lists its columns in pipeline order and finds each by its name. |
| Commands.InitThenAdd | src/commands/mod.rs:10-78 | After `init`, `add` succeeds and creates task 1 in Backlog. |
| Commands.AddTask | src/commands/mod.rs:58-78 | Without a Backlog column nothing is written. Otherwise exactly one new task appears in Backlog: the given title and description, both timestamps `now`, and no assignee, branch or pull request. Other tasks, the comments and the ideas are untouched, and one `task_created` entry is logged. |
| Commands.AddToEmpty | src/commands/mod.rs:58-78 | On a board without tasks, `add` creates task 1 in Backlog. |
| Commands.FindColumnById | src/commands/mod.rs:145-148 | A found column has that id. Nothing is found exactly when no column has it. |
| Commands.CurrentColumnFound | src/commands/mod.rs:144-148 | In a valid store the column of a task is always found, so the `Current column not found` error cannot occur. |
| Commands.MoveGate | src/commands/mod.rs:133-148 | A missing task is reported first, then a missing column. Nothing is called or written. |
| Commands.Relocate | src/commands/mod.rs:150-157 | Only the task's column and update time change, and one entry for the event is logged. |
| Commands.MoveToColumn | src/commands/mod.rs:296-305 | The named column is looked up before anything is written. Without it nothing is written; otherwise only the task's column and update time change, and one entry is logged. |
| Commands.MoveTask | src/commands/mod.rs:133-163 | Succeeds exactly when the task and the column exist, and otherwise writes nothing. On success only the task's column and update time change. Other tasks, the comments and the ideas are untouched, and the log records `from → to`. |
| Commands.CommentOnTask | src/commands/mod.rs:165-188 | A comment is stored exactly when the task exists, signed by the git user or `unknown`. The tasks and the ideas do not change. |
| Commands.RecordIdea | src/commands/mod.rs:190-201 | Always succeeds: one new idea under a fresh id and one log entry. The tasks and the comments do not change. |
| Commands.PromoteGate | src/commands/mod.rs:203-212 | A missing idea is reported first, then a missing Backlog. |
| Commands.PromoteWrites | src/commands/mod.rs:214-224 | A new task gets the idea's text as title and no description. The idea is deleted and no other idea changes. |
| Commands.PromoteIdea | src/commands/mod.rs:203-229 | Succeeds exactly when the idea and Backlog exist. Then the idea is gone, and exactly one new Backlog task carries its content, with no description, assignee, branch or pull request. The comments are untouched. Otherwise nothing changes. |
| Commands.StartGate | src/commands/mod.rs:231-251 | The repository is opened first, then the task is looked up, then the branch is created, then checked out. Each failure is reported with the calls made so far: a failed checkout comes after the branch was created, and that branch stays in the repository. |
| Commands.StartWrites | src/commands/mod.rs:253-265 | The branch is recorded before the Doing lookup. On success the task is in Doing with that branch; without Doing only the branch is recorded. |
| Commands.StartTask | src/commands/mod.rs:231-272 | Git is called before anything is written, so a git failure leaves the store untouched. Once git has succeeded, the task's branch becomes `feature/{id}-{slug}` and its update time `now`; on success it is also in Doing. No other field of the task, no other task, and no comment or idea changes. |
| Commands.FinishCalls | src/commands/mod.rs:283-294 | A commit happens exactly when changes are staged, and comes first. A push happens exactly when the task has a branch. |
| Commands.FinishGate | src/commands/mod.rs:274-294 | Failures of the repository, task, status query and commit are reported in that order. The commit message defaults to `Closes #{id}: {title}`. |
| Commands.FinishTask | src/commands/mod.rs:274-311 | Every git failure leaves the store untouched. On success only the task's column (Done) and update time change. Other tasks, the comments and the ideas are untouched. |
| Commands.FinishTaskGitCalls | src/commands/mod.rs:283-294 | `done` commits exactly when changes are staged, and pushes the task's branch, when it has one, unless the commit failed. |
| Commands.PrUrl | src/commands/mod.rs:330-354 | Without a GitHub remote the text `Manual PR needed for branch: {b}` is recorded and no request is made. A failed request records the literal `owner/repo` compare URL. Without a token the compare URL against `main` is recorded. |
| Commands.SubmitGate | src/commands/mod.rs:313-354 | A task without a branch is refused after opening the repository only. Otherwise the branch is pushed before the remote is looked up. |
| Commands.SubmitWrites | src/commands/mod.rs:356-368 | The pull-request URL is recorded before the Review lookup. On success the task is in Review with that URL. |
| Commands.SubmitTask | src/commands/mod.rs:313-374 | Succeeds exactly when the repository, the task, its branch, a readable remote and Review all exist. A pull-request failure is not fatal: the URL is still recorded and the task still moves. Only the task's pull-request URL, column and update time change; other tasks, the comments and the ideas are untouched. |
| Commands.ReviewTask | src/commands/mod.rs:376-392 | Writes nothing and calls nothing. It fails exactly when the task is missing. |
| Commands.DispatchSettled | src/main.rs:105-116 | Every command leaves a valid store and calls git before writing. It keeps tables it does not write, loses no task, and adds one log entry with its event tag exactly on success. |
| Commands.Run | src/commands/mod.rs:454-463 | Without a board every command fails with `NotInitialized` and does nothing. |
| Commands.Replay | src/main.rs:105-116 | Runs the commands one after the other, each on the store the previous one left, and returns each command's reply. The log is only appended to, and the number of entries added is the number of logging commands that succeeded. Columns and projects never change, and no task is lost. |
| Export.ColumnName | src/commands/mod.rs:408-411 | The column's name when a column has the task's column id, otherwise `Unknown`. |
| Export.WrittenIsEscaped | src/commands/mod.rs:413-422 | When the fields left unescaped need no quoting, writing the line is the same as escaping every field. |
| Export.IdIsPlain | src/commands/mod.rs:414 | A printed id never needs quoting. |
| Export.BranchIsPlain | src/commands/mod.rs:420 | A branch named by `start` holds no comma, double quote or newline. |
| Export.RowRoundTrip | src/commands/mod.rs:413-422 | A task's line is read back as its eight values, provided column name, timestamps, branch and pull request need no quoting. |
| Export.KnownColumn | src/commands/mod.rs:408-411 | In a valid store the `Unknown` fallback never shows. |
| Export.ExportCsv | src/commands/mod.rs:399-424 | The header comes first, then one line per task in the order of `get_tasks`: by column, and newest first within a column. Every task appears once. |
| Board.NewApp | src/tui/mod.rs:58-73 | The first column is selected and the columns are listed in order. Each column's entry holds exactly that column's tasks, each once and newest first, as `get_tasks` lists them. |
| Board.NextColumn | src/tui/mod.rs:75-79 | Moves one column right unless the last column is selected. Only the selection changes, and it stays in bounds. |
| Board.PreviousColumn | src/tui/mod.rs:81-85 | Moves one column left unless the first column is selected. Only the selection changes, and it stays in bounds. |
| Board.NextThenPrevious | src/tui/mod.rs:75-85 | Right then Left returns to the same column, away from the right edge. |
| Board.PreviousThenNext | src/tui/mod.rs:75-85 | Left then Right returns to the same column, away from the left edge. |
| Board.NextTimesStops | src/tui/mod.rs:75-79 | Pressing Right `n` times advances `n` columns, stopping at the last one. |
| Board.HandleKey | src/tui/mod.rs:88-105 | `q` quits, and Left and Right move. `r` rebuilds from the store: the first column is selected and each column shows exactly its current tasks, each once and newest first. Any other key changes nothing. |
| Board.MovedIsKeyHandling | src/tui/mod.rs:75-105 | Left, Right, `r` and any other key move the selection as the one-key reference step says. |
| Board.Session | src/tui/mod.rs:88-105 | The selection ends where a reference reading of the keys up to the first `q` leads, and the board shows the store's columns and tasks. On a board with columns the selection always names a column. The session ends exactly at the first `q`. |

## Left out

- `list`, the Markdown export and `board`'s drawing: these only print. The
  queries behind them (`get_tasks`, `get_columns`) are modelled.
- `get_comments`, `get_ideas`, `get_project_by_path` and
  `get_pull_request_status`: no modelled command depends on them.
- `get_pull_request_status` is a placeholder that always answers `Open`.
- The git operations themselves (`git2`):
  - each command is given what the repository answers (`GitAnswers`);
  - pushing is a simulation in the source and always succeeds.
- File-system and environment access:
  - the directory checks of `init` and `get_database` become the `board`
    argument;
  - the working directory becomes `dirName` and `repoPath`;
  - `GITHUB_TOKEN` becomes the client's `token`.
- A failed SQL statement (a locked or unwritable database) is not modelled:
  every store write succeeds.
- Time: a command takes one `now`, whereas the source reads the clock once
  per statement.
- `stamp`: the `%Y-%m-%d %H:%M:%S` rendering of a timestamp is a parameter.
- Export.RowRoundTrip: requires the rendered timestamps, the column name,
  the branch and the pull-request URL to need no quoting, because the source
  writes them unescaped. The timestamp format never produces a comma, quote
  or line break, and `Export.BranchIsPlain` shows the branches `start` names
  are plain. Nothing keeps the URL plain: `ExtractGitHubInfo` accepts an
  owner holding a comma (`git@github.com:a,b/r.git`), and a networked
  client's answer may hold one too. Such a row gains a column when read back.
- Db.CreateTask: ids come from a counter that is never reused, as under
  SQLite's `AUTOINCREMENT`. The migrations that would show the table
  definition are not part of this model. Tasks are never deleted, so a
  plain SQLite row id would give the same ids.
- Db.CreateIdea: the new idea takes `nextIdeaId`, which is never reused.
  Ideas are deleted by `promote`. If the `ideas` table is declared without
  `AUTOINCREMENT`, SQLite hands the id of a deleted highest idea out again,
  and the ids in the log would then repeat; the model does not show that.
- Commands.RecordIdea: takes its id from `Db.CreateIdea`, so the same
  reuse of a deleted highest idea id is not shown.
- Integer widths: ids are unbounded integers, while the source uses `i64`
  rows and `u32` arguments.
  - Command arguments are restricted to `u32`.
  - Ids past the `i64` maximum, where SQLite stops handing out increasing
    row ids, are not modelled: the model's ids grow without bound.
- Text: `to_lowercase` and `is_alphanumeric` are their ASCII readings. Unicode
  letters outside ASCII are dropped from a slug as non-alphanumeric, where the
  source would keep them.
- Commands.CommentOnTask: the author is given already trimmed. Running
  `git config user.name` and trimming its output is outside the model.
- Board.NextColumn: requires at least one column. On an empty board the source
  computes `len() - 1` in `usize`: a debug build panics, and a release build
  wraps and lets the selection run past the columns.
- Board.HandleKey: requires at least one column for Right, for the reason
  given for `Board.NextColumn`. Errors while rebuilding the board (store
  access failures) are not modelled.
- Board.Session: on a board without columns, requires that Right is not
  pressed before `q`, for the same reason. Sessions without Right, or on a
  board with columns, are not restricted. The session reads one store
  throughout, so a write made by another `pb` run while the board is open,
  which `r` exists to pick up, is not shown; `Board.HandleKey` takes the
  store as it is at each key. The `Err` of a failed terminal
  call (raw mode, the alternate screen, drawing, reading a key) is not
  modelled.
- Commands.DispatchSettled: `println!` panics when standard output cannot be
  written; that panic is not modelled.
- Commands.InitBoard: `board` stands for both checks. `init` refuses when
  the `.projectboard` directory exists, while the other commands need
  `board.sqlite` inside it. An `init` that fails after creating the
  directory leaves one without a database; after that `init` refuses and
  every other command reports `NotInitialized`. The model does not show
  that state.

=== FILE: board.dfy ===
/**
 * The state of the terminal board (`pb board`) and how it reacts to keys:
 * the columns, each column's tasks, and which column is selected. Drawing
 * and the terminal itself are not modelled; a key press is an input.
 */
module Board {
  import opened Outcome
  import opened Db

  /** `App` without its database handle: the columns as `get_columns`
      lists them, each column's tasks by column id, and the selected
      column's index. */
  datatype App = App(columns: seq<Column>, tasksByColumn: map<int, seq<Task>>, selected: nat)

  /** The tasks the board shows for column `id` are exactly the store's
      tasks in that column, each once and newest first, as
      `get_tasks(Some(id))` lists them. */
  predicate ShowsColumn(s: Store, tasks: seq<Task>, id: int)
  {
    && (forall i :: 0 <= i < |tasks| ==> tasks[i].id in s.tasks && s.tasks[tasks[i].id] == tasks[i])
    && (forall i :: 0 <= i < |tasks| ==> tasks[i].columnId == id)
    && (forall k :: k in s.tasks && s.tasks[k].columnId == id ==> s.tasks[k] in tasks)
    && (forall i, j :: 0 <= i < j < |tasks| ==> tasks[i].id != tasks[j].id)
    && (forall i, j :: 0 <= i < j < |tasks| ==> tasks[i].createdAt >= tasks[j].createdAt)
  }

  /** The board shows the store as it is: its columns in order, and for
      each column exactly the store's tasks in it. */
  predicate Loaded(s: Store, app: App)
  {
    && app.columns == GetColumns(s)
    && app.tasksByColumn.Keys == (set c | c in app.columns :: c.id)
    && (forall id :: id in app.tasksByColumn ==> ShowsColumn(s, app.tasksByColumn[id], id))
  }

  /** `App::new`: reads the columns, then each column's tasks; the first
      column is selected. */
  method NewApp(s: Store) returns (app: App)
    requires Valid(s)
    ensures app.selected == 0
    ensures Loaded(s, app)
  {
    var columns := GetColumns(s);
    var byColumn: map<int, seq<Task>> := map[];
    for i := 0 to |columns|
      invariant byColumn.Keys == set c | c in columns[..i] :: c.id
      invariant forall id :: id in byColumn ==> ShowsColumn(s, byColumn[id], id)
    {
      var tasks := GetTasks(s, Some(columns[i].id));
      assert ShowsColumn(s, tasks, columns[i].id);
      assert columns[..i + 1] == columns[..i] + [columns[i]];
      byColumn := byColumn[columns[i].id := tasks];
    }
    assert columns[..|columns|] == columns;
    app := App(columns, byColumn, 0);
  }

  /** The selection names one of the columns. */
  predicate InBounds(app: App) { app.selected < |app.columns| }

  /** `next_column`. The bound `len() - 1` is computed in `usize`, so the
      source cannot take it on a board without columns. */
  function NextColumn(app: App): (r: App)
    requires |app.columns| >= 1
    ensures r == app.(selected := r.selected)
    ensures r.selected == app.selected <==> app.selected >= |app.columns| - 1
    ensures r.selected != app.selected ==> r.selected == app.selected + 1
    ensures InBounds(app) ==> InBounds(r)
  {
    if app.selected < |app.columns| - 1 then app.(selected := app.selected + 1) else app
  }

  /** `previous_column`. */
  function PreviousColumn(app: App): (r: App)
    ensures r == app.(selected := r.selected)
    ensures r.selected == app.selected <==> app.selected == 0
    ensures r.selected != app.selected ==> r.selected + 1 == app.selected
    ensures InBounds(app) ==> InBounds(r)
  {
    if app.selected > 0 then app.(selected := app.selected - 1) else app
  }

  /** Stepping right and back left returns to the same column, unless the
      last column was already selected. */
  lemma NextThenPrevious(app: App)
    requires |app.columns| >= 1 && app.selected < |app.columns| - 1
    ensures PreviousColumn(NextColumn(app)) == app
  {
  }

  /** Stepping left and back right returns to the same column, unless the
      first column was already selected. */
  lemma PreviousThenNext(app: App)
    requires InBounds(app) && app.selected > 0
    ensures NextColumn(PreviousColumn(app)) == app
  {
  }

  /** `n` presses of Right. */
  function NextTimes(app: App, n: nat): (r: App)
    requires |app.columns| >= 1
    ensures r.columns == app.columns
  {
    if n == 0 then app else NextColumn(NextTimes(app, n - 1))
  }

  /** Holding Right walks the selection one column per press and stops
      at the last column. */
  lemma {:induction false} NextTimesStops(app: App, n: nat)
    requires InBounds(app)
    ensures NextTimes(app, n).selected
         == if app.selected + n < |app.columns| - 1 then app.selected + n else |app.columns| - 1
  {
    if n > 0 {
      NextTimesStops(app, n - 1);
    }
  }

  /** The keys the board reacts to; every other key is `OtherKey`. */
  datatype Key = Char(c: char) | Left | Right | OtherKey

  /** One key press of `run_app`: `q` quits (`None`), Left and Right move
      the selection, `r` rebuilds the board from the store as it is now,
      and any other key changes nothing. */
  method HandleKey(app: App, key: Key, current: Store) returns (next: Option<App>)
    requires Valid(current)
    requires key.Right? ==> |app.columns| >= 1
    ensures next.None? <==> key == Char('q')
    ensures key.Left? ==> next == Some(PreviousColumn(app))
    ensures key.Right? ==> next == Some(NextColumn(app))
    ensures key == Char('r') ==> next.Some? && next.value.selected == 0 && Loaded(current, next.value)
    ensures key.OtherKey? || (key.Char? && key.c != 'q' && key.c != 'r') ==> next == Some(app)
  {
    match key
    case Char(c) =>
      if c == 'q' {
        next := None;
      } else if c == 'r' {
        var rebuilt := NewApp(current);
        next := Some(rebuilt);
      } else {
        next := Some(app);
      }
    case Left => next := Some(PreviousColumn(app));
    case Right => next := Some(NextColumn(app));
    case OtherKey => next := Some(app);
  }

  /** Where one key other than `q` moves the selection on a board of `n`
      columns: Left and Right step within the columns, `r` goes back to
      the first column and any other key leaves it. */
  function Moved(n: nat, selected: nat, key: Key): nat
  {
    match key
    case Left => if selected > 0 then selected - 1 else selected
    case Right => if selected + 1 < n then selected + 1 else selected
    case Char(c) => if c == 'r' then 0 else selected
    case OtherKey => selected
  }

  /** Where the selection ends after `keys`, read up to the first `q`. */
  function SelectionAfter(n: nat, selected: nat, keys: seq<Key>): nat
    decreases |keys|
  {
    if keys == [] || keys[0] == Char('q') then selected
    else SelectionAfter(n, Moved(n, selected, keys[0]), keys[1..])
  }

  /** Reading the keys from position `i` on: a `q` there ends the reading,
      any other key moves the selection and reading goes on after it. */
  lemma SelectionFrom(n: nat, selected: nat, keys: seq<Key>, i: nat)
    requires i < |keys|
    ensures SelectionAfter(n, selected, keys[i..])
         == if keys[i] == Char('q') then selected
            else SelectionAfter(n, Moved(n, selected, keys[i]), keys[i + 1..])
  {
    assert keys[i..][0] == keys[i];
    assert keys[i..][1..] == keys[i + 1..];
  }

  /** `Moved` is where `previous_column`, `next_column` and the rebuild
      leave the selection. */
  lemma MovedIsKeyHandling(app: App, key: Key)
    requires key.Right? ==> |app.columns| >= 1
    ensures key.Left? ==> PreviousColumn(app).selected == Moved(|app.columns|, app.selected, key)
    ensures key.Right? ==> NextColumn(app).selected == Moved(|app.columns|, app.selected, key)
    ensures key == Char('r') ==> Moved(|app.columns|, app.selected, key) == 0
    ensures key.OtherKey? || (key.Char? && key.c != 'r') ==> Moved(|app.columns|, app.selected, key) == app.selected
  {
  }

  /** Right is not pressed before the session ends. */
  predicate NoRightBeforeQuit(keys: seq<Key>)
  {
    forall i :: 0 <= i < |keys| && keys[i] == Right ==> Char('q') in keys[..i]
  }

  /** A session at the board: the keys pressed until `q` (or until they run
      out), with the store unchanged meanwhile. The selection ends where
      the keys lead and, on a board with columns, always names one. The
      source cannot take Right on a board without columns. */
  method Session(s: Store, keys: seq<Key>) returns (app: App, quit: bool)
    requires Valid(s)
    requires |s.columns| == 0 ==> NoRightBeforeQuit(keys)
    ensures Loaded(s, app)
    ensures app.selected == SelectionAfter(|s.columns|, 0, keys)
    ensures |s.columns| >= 1 ==> InBounds(app)
    ensures quit <==> Char('q') in keys
  {
    app := NewApp(s);
    var n := |s.columns|;
    assert |app.columns| == n by {
      assert |multiset(app.columns)| == |multiset(s.columns)|;
    }
    quit := false;
    var i := 0;
    while i < |keys|
      invariant 0 <= i <= |keys|
      invariant Loaded(s, app) && |app.columns| == n
      invariant n >= 1 ==> InBounds(app)
      invariant SelectionAfter(n, 0, keys) == SelectionAfter(n, app.selected, keys[i..])
      invariant Char('q') !in keys[..i]
    {
      SelectionFrom(n, app.selected, keys, i);
      MovedIsKeyHandling(app, keys[i]);
      var next := HandleKey(app, keys[i], s);
      if next.None? {
        assert keys[i] in keys;
        quit := true;
        return;
      }
      assert keys[..i + 1] == keys[..i] + [keys[i]];
      app := next.value;
      i := i + 1;
    }
    assert keys[..i] == keys;
  }
}

=== FILE: branch.dfy ===
/**
 * Branch naming for `start`: a task's title is turned into a slug and the
 * branch is called `feature/{id}-{slug}`. Character classes are the ASCII
 * ones of module Text.
 */
module Branch {
  import opened Outcome
  import opened Text

  const Prefix := "feature/"

  /** Characters a slug may keep: alphanumerics and the hyphen. */
  predicate Keep(c: char) { IsAlphanumeric(c) || c == '-' }

  /** `.chars().filter(|c| c.is_alphanumeric() || *c == '-')`. */
  function KeepOnly(s: string): (r: string)
    ensures |r| <= |s|
  {
    if s == [] then [] else (if Keep(s[0]) then [s[0]] else []) + KeepOnly(s[1..])
  }

  /** The three stages of the slug, in the order the source applies them:
      lower-case, spaces to hyphens, drop everything else. */
  function Slug(title: string): string
  {
    KeepOnly(ReplaceChar(Lower(title), ' ', '-'))
  }

  /** `format!("feature/{}-{}", task_id, slug)`. */
  function BranchName(id: nat, title: string): string
  {
    Prefix + NatToString(id) + "-" + Slug(title)
  }

  /** The characters a slug is made of. */
  predicate SlugChar(c: char) { IsLower(c) || IsDigit(c) || c == '-' }

  predicate IsSlug(s: string) { forall i :: 0 <= i < |s| ==> SlugChar(s[i]) }

  /** A one-pass reading of the slug: what each title character becomes. */
  function CharSlug(c: char): string
  {
    if c == ' ' then "-" else if Keep(c) then [ToLower(c)] else []
  }

  /** Reference definition: the slug character by character. */
  function SlugByChar(title: string): string
  {
    if title == [] then [] else CharSlug(title[0]) + SlugByChar(title[1..])
  }

  lemma {:induction false} KeepOnlyAppend(a: string, b: string)
    ensures KeepOnly(a + b) == KeepOnly(a) + KeepOnly(b)
  {
    if a == [] {
      assert a + b == b;
    } else {
      var head := if Keep(a[0]) then [a[0]] else [];
      assert (a + b)[0] == a[0];
      assert (a + b)[1..] == a[1..] + b;
      assert KeepOnly(a + b) == head + KeepOnly(a[1..] + b);
      KeepOnlyAppend(a[1..], b);
      assert KeepOnly(a) == head + KeepOnly(a[1..]);
    }
  }

  /** The staged definition agrees with the character-by-character one. */
  lemma {:induction false} SlugIsByChar(title: string)
    ensures Slug(title) == SlugByChar(title)
  {
    if title != [] {
      var t := ReplaceChar(Lower(title), ' ', '-');
      var t' := ReplaceChar(Lower(title[1..]), ' ', '-');
      assert t == [t[0]] + t';
      KeepOnlyAppend([t[0]], t');
      SlugIsByChar(title[1..]);
      assert KeepOnly([t[0]]) == CharSlug(title[0]);
    }
  }

  /** The slug never contains a space, a slash or an upper-case letter. */
  lemma {:induction false} SlugIsSlug(title: string)
    ensures IsSlug(Slug(title))
    ensures ' ' !in Slug(title) && '/' !in Slug(title)
  {
    SlugIsByChar(title);
    ByCharIsSlug(title);
  }

  lemma {:induction false} ByCharIsSlug(title: string)
    ensures IsSlug(SlugByChar(title))
  {
    if title != [] {
      ByCharIsSlug(title[1..]);
    }
  }

  /** The slug of a concatenation is the concatenation of the slugs. */
  lemma SlugAppend(a: string, b: string)
    ensures Slug(a + b) == Slug(a) + Slug(b)
  {
    assert ReplaceChar(Lower(a + b), ' ', '-')
        == ReplaceChar(Lower(a), ' ', '-') + ReplaceChar(Lower(b), ' ', '-');
    KeepOnlyAppend(ReplaceChar(Lower(a), ' ', '-'), ReplaceChar(Lower(b), ' ', '-'));
  }

  lemma {:induction false} KeepOnlySlug(s: string)
    requires IsSlug(s)
    ensures KeepOnly(s) == s
  {
    if s != [] {
      KeepOnlySlug(s[1..]);
      assert s == [s[0]] + s[1..];
    }
  }

  /** Slugging a slug changes nothing. */
  lemma SlugIdempotent(title: string)
    ensures Slug(Slug(title)) == Slug(title)
  {
    var s := Slug(title);
    SlugIsSlug(title);
    assert ReplaceChar(Lower(s), ' ', '-') == s;
    KeepOnlySlug(s);
  }

  lemma {:induction false} ByCharAppend(a: string, b: string)
    ensures SlugByChar(a + b) == SlugByChar(a) + SlugByChar(b)
  {
    if a == [] {
      assert a + b == b;
    } else {
      assert (a + b)[1..] == a[1..] + b;
      ByCharAppend(a[1..], b);
    }
  }

  lemma ByCharFix()
    ensures SlugByChar("Fix") == "fix"
  {
    assert "Fix"[1..] == "ix" && "ix"[1..] == "x";
  }

  lemma ByCharLogin()
    ensures SlugByChar(" login") == "-login"
  {
    assert " login"[1..] == "login" && "login"[1..] == "ogin" && "ogin"[1..] == "gin";
    assert "gin"[1..] == "in" && "in"[1..] == "n";
  }

  lemma ByCharBug()
    ensures SlugByChar(" bug") == "-bug"
  {
    assert " bug"[1..] == "bug" && "bug"[1..] == "ug" && "ug"[1..] == "g";
  }

  lemma ByCharExample()
    ensures SlugByChar("Fix" + (" login" + " bug")) == "fix" + ("-login" + "-bug")
  {
    ByCharAppend(" login", " bug");
    ByCharAppend("Fix", " login" + " bug");
    ByCharFix();
    ByCharLogin();
    ByCharBug();
  }

  /** Example: the title "Fix login bug". */
  lemma SlugExample()
    ensures Slug("Fix login bug") == "fix-login-bug"
  {
    ByCharExample();
    assert "Fix" + (" login" + " bug") == "Fix login bug";
    assert "fix" + ("-login" + "-bug") == "fix-login-bug";
    SlugIsByChar("Fix login bug");
  }

  /** Example: task 1 titled "Fix login bug". */
  lemma BranchNameExample()
    ensures BranchName(1, "Fix login bug") == "feature/1-fix-login-bug"
  {
    SlugExample();
  }

  /** Reads a branch name back into the task id and the slug. */
  function ParseBranchName(b: string): Option<(nat, string)>
  {
    if !(Prefix <= b) then None
    else
      var rest := b[|Prefix|..];
      var k := IndexOf(rest, '-');
      if k == |rest| || k == 0 || !AllDigits(rest[..k]) then None
      else Some((ParseNat(rest[..k]), rest[k + 1..]))
  }

  /** The branch name records the task id and the slug, and both can be
      recovered from it; so two tasks with different ids never share a branch. */
  lemma BranchNameRoundTrip(id: nat, title: string)
    ensures ParseBranchName(BranchName(id, title)) == Some((id, Slug(title)))
  {
    var b := BranchName(id, title);
    var digits := NatToString(id);
    var rest := b[|Prefix|..];
    assert b == Prefix + (digits + "-" + Slug(title));
    assert rest == digits + ("-" + Slug(title));
    assert '-' !in digits by {
      forall i | 0 <= i < |digits| ensures digits[i] != '-' { assert IsDigit(digits[i]); }
    }
    IndexOfAppend(digits, "-" + Slug(title), '-');
    assert rest[..|digits|] == digits;
    assert rest[|digits| + 1..] == Slug(title);
    ParseNatToString(id);
  }

  /** Distinct task ids give distinct branch names. */
  lemma BranchNameInjective(i: nat, t: string, j: nat, u: string)
    requires BranchName(i, t) == BranchName(j, u)
    ensures i == j && Slug(t) == Slug(u)
  {
    BranchNameRoundTrip(i, t);
    BranchNameRoundTrip(j, u);
  }

  /** The branch name has the fixed prefix, no spaces, and after the
      prefix no further slash. */
  lemma BranchNameShape(id: nat, title: string)
    ensures Prefix <= BranchName(id, title)
    ensures ' ' !in BranchName(id, title)
    ensures '/' !in BranchName(id, title)[|Prefix|..]
    ensures |BranchName(id, title)| > |Prefix| + 1
  {
    var digits := NatToString(id);
    var b := BranchName(id, title);
    SlugIsSlug(title);
    assert b[|Prefix|..] == digits + "-" + Slug(title);
    forall i | 0 <= i < |b| ensures b[i] != ' ' {
      if i < |Prefix| {
      } else if i < |Prefix| + |digits| {
        assert b[i] == digits[i - |Prefix|];
        assert IsDigit(digits[i - |Prefix|]);
      } else if i > |Prefix| + |digits| {
        assert b[i] == Slug(title)[i - |Prefix| - |digits| - 1];
      }
    }
    forall i | 0 <= i < |b| - |Prefix| ensures b[|Prefix|..][i] != '/' {
      if i < |digits| {
        assert IsDigit(digits[i]);
      } else if i > |digits| {
        assert b[|Prefix|..][i] == Slug(title)[i - |digits| - 1];
      }
    }
  }
}

=== FILE: commands.dfy ===
/**
 * The lifecycle commands of the board (`add`, `move`, `comment`, `idea`,
 * `promote`, `start`, `done`, `submit`, `review`) as pure functions over
 * the store. What git, the remote and the pull-request service would
 * answer is passed in (`Env`), and each command reports, besides the new
 * store and its status, the trace of what it did in order: the git and
 * pull-request calls it made and the tables it wrote.
 *
 * The clock is the `now` each command is given; the source reads the
 * clock once per statement, so the timestamps of one command may differ
 * by the time the statements take.
 */
module Commands {
  import opened Outcome
  import opened Text
  import opened Db
  import Branch
  import GitHub

  /** A task or idea number as the command line parses it (`u32`). */
  type U32 = x: int | 0 <= x < 0x1_0000_0000

  datatype Command =
    | Add(title: string, description: Option<string>)
    | Move(taskId: U32, column: string)
    | CommentOn(taskId: U32, text: string)
    | NewIdea(content: string)
    | Promote(ideaId: U32)
    | Start(taskId: U32)
    | Finish(taskId: U32, message: Option<string>)   // `done`
    | Submit(taskId: U32)
    | Review(taskId: U32)

  /** What `get_remote_url` answers: no `origin`, its URL, or a URL that is not UTF-8. */
  datatype RemoteAnswer = NoOrigin | Origin(url: string) | UrlNotUtf8

  /** What the git repository answers during one command. Pushing is a
      simulation in the source and always succeeds, so it has no answer. */
  datatype GitAnswers = GitAnswers(
    repository: bool,        // the working directory is inside a repository
    branchCreated: bool,
    checkedOut: bool,
    staged: Option<bool>,    // `has_staged_changes`; `None` when the status query fails
    committed: bool,
    remote: RemoteAnswer)

  /** The world outside the store: git, the pull-request service and `git config user.name`. */
  datatype Env = Env(git: GitAnswers, review: GitHub.ReviewClient, gitUser: Option<string>)

  datatype Table = Tasks | Comments | Ideas | ActivityLog

  datatype Effect =
    | Git(step: GitStep, arg: string)
    | PullRequest(owner: string, repo: string, title: string, body: string, head: string, base: string)
    | Write(table: Table)

  /** How the checks a command makes before its first write ended:
      refused with an error, or cleared with what the writes need; either
      way after the git and pull-request calls in `calls`. */
  datatype Gate<T> = Refused(error: Error, calls: seq<Effect>) | Cleared(calls: seq<Effect>, value: T)

  /** The store after a command, how it ended, and what it did in order. */
  datatype Reply = Reply(board: Store, status: Result<()>, trace: seq<Effect>)

  // ----- What every command guarantees -----

  /** Every call to git or to the pull-request service precedes the first write to the store. */
  predicate ExternalFirst(trace: seq<Effect>)
  {
    forall i, j :: 0 <= i < j < |trace| && trace[i].Write? ==> trace[j].Write?
  }

  /** A table the trace never writes is the same afterwards; projects and
      columns are never written by a command. */
  predicate WritesCover(s: Store, s': Store, trace: seq<Effect>)
  {
    && (Write(Tasks) !in trace ==> s'.tasks == s.tasks && s'.nextTaskId == s.nextTaskId)
    && (Write(Comments) !in trace ==> s'.comments == s.comments)
    && (Write(Ideas) !in trace ==> s'.ideas == s.ideas && s'.nextIdeaId == s.nextIdeaId)
    && (Write(ActivityLog) !in trace ==> s'.activity == s.activity)
    && s'.projects == s.projects
    && s'.columns == s.columns
  }

  /** No task disappears; its title, description and creation time never
      change, and a recorded branch or pull request is never cleared. */
  predicate TasksKept(s: Store, s': Store)
  {
    forall k :: k in s.tasks ==>
      && k in s'.tasks
      && s'.tasks[k].title == s.tasks[k].title
      && s'.tasks[k].description == s.tasks[k].description
      && s'.tasks[k].createdAt == s.tasks[k].createdAt
      && (s.tasks[k].branchName.Some? ==> s'.tasks[k].branchName.Some?)
      && (s.tasks[k].prUrl.Some? ==> s'.tasks[k].prUrl.Some?)
  }

  /** The log only grows: by one entry when a logging command succeeds,
      otherwise not at all. */
  predicate LogGrowth(s: Store, s': Store, ok: bool, logs: bool)
  {
    && s.activity <= s'.activity
    && |s'.activity| == |s.activity| + (if ok && logs then 1 else 0)
  }

  predicate Sound(s: Store, r: Reply, logs: bool)
  {
    && Valid(r.board)
    && ExternalFirst(r.trace)
    && WritesCover(s, r.board, r.trace)
    && TasksKept(s, r.board)
    && LogGrowth(s, r.board, r.status.Ok?, logs)
  }

  /** What a caller may rely on whatever the command: the reply is sound,
      a success that logs has appended an entry for `event` stamped `now`,
      and a git failure has left the store untouched. */
  predicate Settled(s: Store, r: Reply, logs: bool, event: string, now: int)
  {
    && Sound(s, r, logs)
    && (r.status.Ok? && logs ==>
          && |r.board.activity| > |s.activity|
          && r.board.activity[|s.activity|].event == event
          && r.board.activity[|s.activity|].createdAt == now)
    && (r.status.Err? && r.status.error.GitFailure? ==> r.board == s)
  }

  /** The log gained exactly the entry `event` with `metadata`, stamped `now`. */
  predicate LoggedOnce(s: Store, s': Store, event: string, metadata: string, now: int)
  {
    s'.activity == s.activity + [Activity(|s.activity| + 1, event, Some(metadata), now)]
  }

  /** Tasks were at most rewritten in place: none was added or removed,
      and the comments and the ideas are as they were. */
  predicate OnlyTasksUpdated(s: Store, s': Store)
  {
    && s'.tasks.Keys == s.tasks.Keys && s'.nextTaskId == s.nextTaskId
    && s'.comments == s.comments
    && s'.ideas == s.ideas && s'.nextIdeaId == s.nextIdeaId
  }

  /** The trace holds only git and pull-request calls. */
  predicate NoWrites(trace: seq<Effect>)
  {
    forall i :: 0 <= i < |trace| ==> !trace[i].Write?
  }

  /** The trace holds only writes to the store. */
  predicate OnlyWrites(trace: seq<Effect>)
  {
    forall i :: 0 <= i < |trace| ==> trace[i].Write?
  }

  /** A command that gives up after `calls` without writing anything. */
  function Refuse(s: Store, e: Error, calls: seq<Effect>): (r: Reply)
    requires Valid(s) && NoWrites(calls)
    ensures r.board == s && r.status == Err(e) && r.trace == calls
    ensures Sound(s, r, true) && Sound(s, r, false)
  {
    Reply(s, Err(e), calls)
  }

  /** The store writes `w` preceded by the calls that made them possible.
      Calls made before a sound run of writes keep it sound. */
  function Proceed(s: Store, calls: seq<Effect>, w: Reply, event: string, now: int): (r: Reply)
    requires NoWrites(calls) && OnlyWrites(w.trace) && Settled(s, w, true, event, now)
    ensures r.board == w.board && r.status == w.status && r.trace == calls + w.trace
    ensures Settled(s, r, true, event, now)
  {
    CallsThenWrites(calls, w.trace);
    Reply(w.board, w.status, calls + w.trace)
  }

  /** A write of the tasks table in front of a settled run of writes
      keeps it settled. */
  lemma TaskWriteFirst(s: Store, s1: Store, w: Reply, event: string, now: int)
    requires Valid(s1) && s1.(tasks := s.tasks) == s && TasksKept(s, s1)
    requires Settled(s1, w, true, event, now) && OnlyWrites(w.trace)
    requires w.status.Err? ==> !w.status.error.GitFailure?
    ensures Settled(s, Reply(w.board, w.status, [Write(Tasks)] + w.trace), true, event, now)
  {
    var t := [Write(Tasks)] + w.trace;
    forall e | e in w.trace ensures e in t {
      assert t[1..] == w.trace;
    }
  }

  /** In calls followed by writes, each effect comes from the part of its kind. */
  lemma CallsThenWrites(calls: seq<Effect>, writes: seq<Effect>)
    requires NoWrites(calls) && OnlyWrites(writes)
    ensures forall e: Effect :: e in calls + writes <==> (if e.Write? then e in writes else e in calls)
  {
    forall e: Effect | e in calls + writes
      ensures if e.Write? then e in writes else e in calls
    {
      var i :| 0 <= i < |calls + writes| && (calls + writes)[i] == e;
      if i < |calls| {
        assert calls[i] == e;
      } else {
        assert writes[i - |calls|] == e;
      }
    }
  }

  /** `Task #{id}: {text}`. */
  function TaskLine(id: int, text: string): string
  {
    "Task #" + IntToString(id) + ": " + text
  }

  /** The column a task of a valid store is in. */
  function ColumnOf(s: Store, id: int): Column
    requires Valid(s) && id in s.tasks
  {
    s.columns[s.tasks[id].columnId - 1]
  }

  // ----- Column lookups -----

  /** The first column with the given id (`.find(|c| c.id == …)`). */
  function FindColumnById(columns: seq<Column>, id: int): (r: Option<Column>)
    ensures r.Some? ==> r.value in columns && r.value.id == id
    ensures r.None? <==> forall i :: 0 <= i < |columns| ==> columns[i].id != id
  {
    if columns == [] then None
    else if columns[0].id == id then Some(columns[0])
    else FindColumnById(columns[1..], id)
  }

  /** In a valid store the column a task refers to is always found, and it
      is the row with that id. */
  lemma CurrentColumnFound(s: Store, id: int)
    requires Valid(s) && id in s.tasks
    ensures FindColumnById(GetColumns(s), s.tasks[id].columnId) == Some(ColumnOf(s, id))
  {
    var c := ColumnOf(s, id);
    var cid := s.tasks[id].columnId;
    assert c in multiset(s.columns);
    assert c in multiset(GetColumns(s));
    var i :| 0 <= i < |GetColumns(s)| && GetColumns(s)[i] == c;
    var found := FindColumnById(GetColumns(s), cid);
    assert found.Some?;
    assert found.value in multiset(GetColumns(s));
    assert found.value in multiset(s.columns);
    var j :| 0 <= j < |s.columns| && s.columns[j] == found.value;
  }

  // ----- init -----

  /** The project's name: the last component of the working directory, or
      `project` when it has none. */
  function ProjectName(dirName: Option<string>): string
  {
    dirName.GetOr("project")
  }

  /** The board `init` leaves behind: the default columns, one project,
      one log entry and nothing else. */
  function Initialised(name: string, repoPath: string, now: int): Store
  {
    Store([Project(1, name, repoPath)], FreshColumns, map[], 1, [], map[], 1,
          [Activity(1, "project_initialized", Some("Project: " + name), now)])
  }

  lemma InitialisedValid(name: string, repoPath: string, now: int)
    ensures Valid(Initialised(name, repoPath, now))
  {
    var s := Initialised(name, repoPath, now);
    assert Numbered(s.columns, (c: Column) => c.id) by {
      forall i | 0 <= i < 5 ensures s.columns[i].id == i + 1 {
        assert FreshColumns[i].id == i + 1;
      }
    }
  }

  /** `init_command`. `board` is the store already present in the
      repository, if any; `repository` says whether the working directory
      is inside a git repository, `dirName` is its last path component and
      `repoPath` its full path. */
  function InitBoard(board: Option<Store>, repository: bool, dirName: Option<string>,
                     repoPath: string, now: int): (r: Result<Store>)
    ensures r.Err? <==> !repository || board.Some?
    ensures !repository ==> r.error == GitFailure(Discover)
    ensures repository && board.Some? ==> r.error == AlreadyInitialized
    ensures r.Ok? ==> r.value == Initialised(ProjectName(dirName), repoPath, now) && Valid(r.value)
  {
    if !repository then Err(GitFailure(Discover))
    else if board.Some? then Err(AlreadyInitialized)
    else
      DefaultColumnsOnEmpty(Empty);
      var s1 := CreateDefaultColumns(Empty).0;
      var (s2, project) := CreateProject(s1, ProjectName(dirName), repoPath);
      InitialisedValid(ProjectName(dirName), repoPath, now);
      Ok(LogActivity(s2, "project_initialized", Some("Project: " + project.name), now))
  }

  /** A freshly initialised board lists the five default columns in order
      and finds each by its name ... */
  lemma InitialisedColumns(name: string, repoPath: string, now: int)
    ensures GetColumns(Initialised(name, repoPath, now)) == FreshColumns
    ensures forall i :: 0 <= i < |FreshColumns| ==>
      GetColumnByName(Initialised(name, repoPath, now), FreshColumns[i].name) == Some(FreshColumns[i])
  {
    FreshColumnsInOrder(Initialised(name, repoPath, now));
    FreshColumnsByName(Initialised(name, repoPath, now));
  }

  /** ... and `add` puts the first task, number 1, into Backlog (column 1). */
  lemma InitThenAdd(dirName: Option<string>, repoPath: string, now: int,
                    title: string, description: Option<string>, later: int)
    ensures InitBoard(None, true, dirName, repoPath, now).Ok?
    ensures var a := AddTask(InitBoard(None, true, dirName, repoPath, now).value, title, description, later);
      && a.status.Ok? && a.board.tasks.Keys == {1} && a.board.tasks[1].columnId == 1
  {
    var s := InitBoard(None, true, dirName, repoPath, now).value;
    InitialisedColumns(ProjectName(dirName), repoPath, now);
    AddToEmpty(s, FreshColumns[0], title, description, later);
  }

  // ----- add -----

  /** `add_command`: a new task in Backlog. */
  function AddTask(s: Store, title: string, description: Option<string>, now: int): (r: Reply)
    requires Valid(s)
    ensures Settled(s, r, true, "task_created", now)
    ensures r.status.Ok? <==> HasColumn(s, "Backlog")
    ensures r.status.Err? ==> r.status == Err(ColumnNotFound("Backlog")) && r.board == s
    ensures r.board.comments == s.comments && r.board.ideas == s.ideas && r.board.nextIdeaId == s.nextIdeaId
    ensures r.status.Ok? ==>
      && s.nextTaskId !in s.tasks
      && r.board.tasks.Keys == s.tasks.Keys + {s.nextTaskId}
      && (forall k :: k in s.tasks ==> r.board.tasks[k] == s.tasks[k])
      && r.board.tasks[s.nextTaskId]
         == Task(s.nextTaskId, title, description, GetColumnByName(s, "Backlog").value.id, None, now, now, None, None)
      && LoggedOnce(s, r.board, "task_created", TaskLine(s.nextTaskId, title), now)
  {
    var backlog := GetColumnByName(s, "Backlog");
    if backlog.None? then Refuse(s, ColumnNotFound("Backlog"), [])
    else
      ColumnByNameIsRow(s, "Backlog");
      var (s1, t) := CreateTask(s, title, description, backlog.value.id, now);
      var s2 := LogActivity(s1, "task_created", Some(TaskLine(t.id, t.title)), now);
      LogActivityKeepsValid(s1, "task_created", Some(TaskLine(t.id, t.title)), now);
      Reply(s2, Ok(()), [Write(Tasks), Write(ActivityLog)])
  }

  /** On a board without tasks, `add` creates task 1 in Backlog. */
  lemma AddToEmpty(s: Store, backlog: Column, title: string, description: Option<string>, now: int)
    requires Valid(s) && s.tasks == map[] && s.nextTaskId == 1
    requires GetColumnByName(s, "Backlog") == Some(backlog)
    ensures var a := AddTask(s, title, description, now);
      && a.status.Ok? && a.board.tasks.Keys == {1} && a.board.tasks[1].columnId == backlog.id
  {
  }

  // ----- move -----

  /** `Task #{id}: {from} → {to}`. */
  function MoveLine(id: int, from: string, to: string): string
  {
    "Task #" + IntToString(id) + ": " + from + " \U{2192} " + to
  }

  /** Moves a task to column `columnId` and logs `event` with `line`: the
      writes of `move` and of `done`. */
  function Relocate(s: Store, taskId: int, columnId: int, event: string, line: string, now: int): (r: Reply)
    requires Valid(s) && taskId in s.tasks && 1 <= columnId <= |s.columns|
    ensures Settled(s, r, true, event, now) && OnlyWrites(r.trace) && r.status.Ok?
    ensures OnlyTasksUpdated(s, r.board)
    ensures forall k :: k in s.tasks && k != taskId ==> r.board.tasks[k] == s.tasks[k]
    ensures SameButColumn(r.board.tasks[taskId], s.tasks[taskId])
    ensures r.board.tasks[taskId].columnId == columnId && r.board.tasks[taskId].updatedAt == now
    ensures LoggedOnce(s, r.board, event, line, now)
  {
    var s1 := UpdateTaskColumn(s, taskId, columnId, now);
    UpdateTaskColumnKeepsValid(s, taskId, columnId, now);
    var s2 := LogActivity(s1, event, Some(line), now);
    LogActivityKeepsValid(s1, event, Some(line), now);
    Reply(s2, Ok(()), [Write(Tasks), Write(ActivityLog)])
  }

  /** Moves a task to the column named `name` and logs `event` with
      `line`; without such a column nothing is written. */
  function MoveToColumn(s: Store, taskId: int, name: string, event: string, line: string, now: int): (r: Reply)
    requires Valid(s) && taskId in s.tasks
    ensures Settled(s, r, true, event, now) && OnlyWrites(r.trace)
    ensures OnlyTasksUpdated(s, r.board)
    ensures r.status.Ok? <==> HasColumn(s, name)
    ensures r.status.Err? ==> r.status == Err(ColumnNotFound(name)) && r.board == s
    ensures r.status.Ok? ==>
      && (forall k :: k in s.tasks && k != taskId ==> r.board.tasks[k] == s.tasks[k])
      && SameButColumn(r.board.tasks[taskId], s.tasks[taskId])
      && r.board.tasks[taskId].columnId == GetColumnByName(s, name).value.id
      && r.board.tasks[taskId].updatedAt == now
      && LoggedOnce(s, r.board, event, line, now)
  {
    var column := GetColumnByName(s, name);
    if column.None? then Refuse(s, ColumnNotFound(name), [])
    else
      ColumnByNameIsRow(s, name);
      Relocate(s, taskId, column.value.id, event, line, now)
  }

  /** The checks of `move`: the task, the target column and the task's
      current column must exist. In a valid store the current column always
      does. */
  function MoveGate(s: Store, taskId: U32, name: string): (g: Gate<(Column, Column)>)
    requires Valid(s)
    ensures g.calls == []
    ensures g.Cleared? <==> taskId in s.tasks && HasColumn(s, name)
    ensures taskId !in s.tasks ==> g.error == TaskNotFound(taskId)
    ensures taskId in s.tasks && !HasColumn(s, name) ==> g.error == ColumnNotFound(name)
    ensures g.Cleared? ==> g.value == (ColumnOf(s, taskId), GetColumnByName(s, name).value)
  {
    var task := GetTask(s, taskId);
    if task.None? then Refused(TaskNotFound(taskId), [])
    else
      var target := GetColumnByName(s, name);
      if target.None? then Refused(ColumnNotFound(name), [])
      else
        CurrentColumnFound(s, taskId);
        var current := FindColumnById(GetColumns(s), task.value.columnId);
        if current.None? then Refused(CurrentColumnNotFound, [])
        else Cleared([], (current.value, target.value))
  }

  /** `move_command`: the task goes to the named column; only its column
      and update time change. */
  function MoveTask(s: Store, taskId: U32, name: string, now: int): (r: Reply)
    requires Valid(s)
    ensures Settled(s, r, true, "task_moved", now)
    ensures r.status.Ok? <==> taskId in s.tasks && HasColumn(s, name)
    ensures taskId !in s.tasks ==> r.status == Err(TaskNotFound(taskId))
    ensures taskId in s.tasks && !HasColumn(s, name) ==> r.status == Err(ColumnNotFound(name))
    ensures r.status.Err? ==> r.board == s && r.trace == []
    ensures OnlyTasksUpdated(s, r.board)
    ensures r.status.Ok? ==>
      && (forall k :: k in s.tasks && k != taskId ==> r.board.tasks[k] == s.tasks[k])
      && r.board.tasks[taskId]
         == s.tasks[taskId].(columnId := GetColumnByName(s, name).value.id, updatedAt := now)
      && LoggedOnce(s, r.board, "task_moved", MoveLine(taskId, ColumnOf(s, taskId).name, name), now)
  {
    var g := MoveGate(s, taskId, name);
    if g.Refused? then Refuse(s, g.error, [])
    else
      var (current, target) := g.value;
      ColumnByNameIsRow(s, name);
      Relocate(s, taskId, target.id, "task_moved", MoveLine(taskId, current.name, target.name), now)
  }

  // ----- comment -----

  /** The author of a comment: the git user name, or `unknown`. */
  function Author(gitUser: Option<string>): string
  {
    gitUser.GetOr("unknown")
  }

  /** `comment_command`: a comment on an existing task, signed by the git user. */
  function CommentOnTask(s: Store, taskId: U32, text: string, gitUser: Option<string>, now: int): (r: Reply)
    requires Valid(s)
    ensures Settled(s, r, true, "comment_added", now)
    ensures r.status.Ok? <==> taskId in s.tasks
    ensures r.status.Err? ==> r.status == Err(TaskNotFound(taskId)) && r.board == s
    ensures r.board.tasks == s.tasks && r.board.nextTaskId == s.nextTaskId
    ensures r.board.ideas == s.ideas && r.board.nextIdeaId == s.nextIdeaId
    ensures r.status.Ok? ==>
      && r.board.comments == s.comments + [Comment(|s.comments| + 1, taskId, Author(gitUser), text, now)]
      && LoggedOnce(s, r.board, "comment_added", "Task #" + IntToString(taskId) + ": comment by " + Author(gitUser), now)
  {
    var task := GetTask(s, taskId);
    if task.None? then Refuse(s, TaskNotFound(taskId), [])
    else
      var author := Author(gitUser);
      var (s1, _) := CreateComment(s, task.value.id, author, text, now);
      CreateCommentKeepsValid(s, task.value.id, author, text, now);
      var s2 := LogActivity(s1, "comment_added", Some("Task #" + IntToString(task.value.id) + ": comment by " + author), now);
      LogActivityKeepsValid(s1, "comment_added", Some("Task #" + IntToString(task.value.id) + ": comment by " + author), now);
      Reply(s2, Ok(()), [Write(Comments), Write(ActivityLog)])
  }

  // ----- idea -----

  /** `Idea #{id}: {content}`. */
  function IdeaLine(id: int, content: string): string
  {
    "Idea #" + IntToString(id) + ": " + content
  }

  /** `idea_command`: records an idea; it cannot fail. */
  function RecordIdea(s: Store, content: string, now: int): (r: Reply)
    requires Valid(s)
    ensures Settled(s, r, true, "idea_created", now)
    ensures r.status.Ok?
    ensures s.nextIdeaId !in s.ideas
    ensures r.board.ideas == s.ideas[s.nextIdeaId := Idea(s.nextIdeaId, content, now)]
    ensures r.board.tasks == s.tasks && r.board.nextTaskId == s.nextTaskId
    ensures r.board.comments == s.comments
    ensures LoggedOnce(s, r.board, "idea_created", IdeaLine(s.nextIdeaId, content), now)
  {
    var (s1, idea) := CreateIdea(s, content, now);
    var s2 := LogActivity(s1, "idea_created", Some(IdeaLine(idea.id, content)), now);
    LogActivityKeepsValid(s1, "idea_created", Some(IdeaLine(idea.id, content)), now);
    Reply(s2, Ok(()), [Write(Ideas), Write(ActivityLog)])
  }

  // ----- promote -----

  /** `Idea #{idea} → Task #{task}: {content}`. */
  function PromoteLine(ideaId: int, taskId: int, content: string): string
  {
    "Idea #" + IntToString(ideaId) + " \U{2192} Task #" + IntToString(taskId) + ": " + content
  }

  /** The checks of `promote`: the idea and the Backlog column must exist. */
  function PromoteGate(s: Store, ideaId: U32): (g: Gate<(Idea, Column)>)
    ensures g.calls == []
    ensures g.Cleared? <==> ideaId in s.ideas && HasColumn(s, "Backlog")
    ensures ideaId !in s.ideas ==> g.error == IdeaNotFound(ideaId)
    ensures ideaId in s.ideas && !HasColumn(s, "Backlog") ==> g.error == ColumnNotFound("Backlog")
    ensures g.Cleared? ==> g.value == (s.ideas[ideaId], GetColumnByName(s, "Backlog").value)
  {
    var idea := GetIdea(s, ideaId);
    if idea.None? then Refused(IdeaNotFound(ideaId), [])
    else
      var backlog := GetColumnByName(s, "Backlog");
      if backlog.None? then Refused(ColumnNotFound("Backlog"), [])
      else Cleared([], (idea.value, backlog.value))
  }

  /** The writes of `promote`: a task from the idea, the idea deleted, the log entry. */
  function PromoteWrites(s: Store, ideaId: int, columnId: int, now: int): (r: Reply)
    requires Valid(s) && ideaId in s.ideas && 1 <= columnId <= |s.columns|
    ensures Settled(s, r, true, "idea_promoted", now) && r.status.Ok?
    ensures r.board.ideas.Keys == s.ideas.Keys - {ideaId}
    ensures forall k :: k in r.board.ideas ==> r.board.ideas[k] == s.ideas[k]
    ensures s.nextTaskId !in s.tasks
    ensures r.board.tasks.Keys == s.tasks.Keys + {s.nextTaskId}
    ensures forall k :: k in s.tasks ==> r.board.tasks[k] == s.tasks[k]
    ensures r.board.tasks[s.nextTaskId]
         == Task(s.nextTaskId, s.ideas[ideaId].content, None, columnId, None, now, now, None, None)
    ensures r.board.comments == s.comments
    ensures LoggedOnce(s, r.board, "idea_promoted", PromoteLine(ideaId, s.nextTaskId, s.ideas[ideaId].content), now)
  {
    var content := s.ideas[ideaId].content;
    var (s1, t) := CreateTask(s, content, None, columnId, now);
    var s2 := DeleteIdea(s1, ideaId);
    DeleteIdeaKeepsValid(s1, ideaId);
    var s3 := LogActivity(s2, "idea_promoted", Some(PromoteLine(ideaId, t.id, content)), now);
    LogActivityKeepsValid(s2, "idea_promoted", Some(PromoteLine(ideaId, t.id, content)), now);
    Reply(s3, Ok(()), [Write(Tasks), Write(Ideas), Write(ActivityLog)])
  }

  /** `promote_command`: the idea becomes a Backlog task with the idea's
      text as title and no description, and the idea is deleted. */
  function PromoteIdea(s: Store, ideaId: U32, now: int): (r: Reply)
    requires Valid(s)
    ensures Settled(s, r, true, "idea_promoted", now)
    ensures r.status.Ok? <==> ideaId in s.ideas && HasColumn(s, "Backlog")
    ensures ideaId !in s.ideas ==> r.status == Err(IdeaNotFound(ideaId))
    ensures ideaId in s.ideas && !HasColumn(s, "Backlog") ==> r.status == Err(ColumnNotFound("Backlog"))
    ensures r.status.Err? ==> r.board == s && r.trace == []
    ensures r.board.comments == s.comments
    ensures r.status.Ok? ==>
      && r.board.ideas.Keys == s.ideas.Keys - {ideaId}
      && (forall k :: k in r.board.ideas ==> r.board.ideas[k] == s.ideas[k])
      && s.nextTaskId !in s.tasks
      && r.board.tasks.Keys == s.tasks.Keys + {s.nextTaskId}
      && (forall k :: k in s.tasks ==> r.board.tasks[k] == s.tasks[k])
      && r.board.tasks[s.nextTaskId]
         == Task(s.nextTaskId, s.ideas[ideaId].content, None, GetColumnByName(s, "Backlog").value.id,
                 None, now, now, None, None)
      && LoggedOnce(s, r.board, "idea_promoted", PromoteLine(ideaId, s.nextTaskId, s.ideas[ideaId].content), now)
  {
    var g := PromoteGate(s, ideaId);
    if g.Refused? then Refuse(s, g.error, [])
    else
      ColumnByNameIsRow(s, "Backlog");
      PromoteWrites(s, ideaId, g.value.1.id, now)
  }

  // ----- start -----

  /** The git side of `start`: find the repository and the task, then
      create and check out the task's branch. */
  function StartGate(s: Store, taskId: U32, git: GitAnswers): (g: Gate<string>)
    ensures NoWrites(g.calls)
    ensures g.Cleared? <==> git.repository && taskId in s.tasks && git.branchCreated && git.checkedOut
    ensures !git.repository ==> g.error == GitFailure(Discover)
    ensures git.repository && taskId !in s.tasks ==> g.error == TaskNotFound(taskId)
    ensures git.repository && taskId in s.tasks && !git.branchCreated ==> g.error == GitFailure(CreateBranch)
    ensures git.repository && taskId in s.tasks && git.branchCreated && !git.checkedOut ==>
      g.error == GitFailure(Checkout)
    ensures g.Cleared? ==>
      var b := Branch.BranchName(taskId, s.tasks[taskId].title);
      g.value == b && g.calls == [Git(Discover, ""), Git(CreateBranch, b), Git(Checkout, b)]
    ensures !git.repository || taskId !in s.tasks ==> g.calls == [Git(Discover, "")]
    ensures git.repository && taskId in s.tasks && !git.branchCreated ==>
      g.calls == [Git(Discover, ""), Git(CreateBranch, Branch.BranchName(taskId, s.tasks[taskId].title))]
    ensures git.repository && taskId in s.tasks && git.branchCreated && !git.checkedOut ==>
      var b := Branch.BranchName(taskId, s.tasks[taskId].title);
      g.calls == [Git(Discover, ""), Git(CreateBranch, b), Git(Checkout, b)]
  {
    var discovered := [Git(Discover, "")];
    if !git.repository then Refused(GitFailure(Discover), discovered)
    else
      var task := GetTask(s, taskId);
      if task.None? then Refused(TaskNotFound(taskId), discovered)
      else
        var b := Branch.BranchName(taskId, task.value.title);
        if !git.branchCreated then Refused(GitFailure(CreateBranch), discovered + [Git(CreateBranch, b)])
        else if !git.checkedOut then
          Refused(GitFailure(Checkout), discovered + [Git(CreateBranch, b), Git(Checkout, b)])
        else Cleared(discovered + [Git(CreateBranch, b), Git(Checkout, b)], b)
  }

  /** The store writes of `start` once git has created and checked out
      branch `b`: the branch is recorded first, and only then is the Doing
      column looked up, so without it the branch stays recorded. */
  function StartWrites(s: Store, taskId: U32, b: string, now: int): (r: Reply)
    requires Valid(s) && taskId in s.tasks
    ensures Settled(s, r, true, "task_started", now) && OnlyWrites(r.trace)
    ensures r.status.Ok? <==> HasColumn(s, "Doing")
    ensures r.status.Err? ==> r.status == Err(ColumnNotFound("Doing"))
    ensures OnlyTasksUpdated(s, r.board)
    ensures forall k :: k in s.tasks && k != taskId ==> r.board.tasks[k] == s.tasks[k]
    ensures r.status.Ok? ==>
      && r.board.tasks[taskId] == s.tasks[taskId].(branchName := Some(b), updatedAt := now,
                                                   columnId := GetColumnByName(s, "Doing").value.id)
      && LoggedOnce(s, r.board, "task_started", "Task #" + IntToString(taskId) + ": created branch " + b, now)
    ensures r.status.Err? ==>
      r.board.tasks[taskId] == s.tasks[taskId].(branchName := Some(b), updatedAt := now)
  {
    var s1 := UpdateTaskBranch(s, taskId, b, now);
    UpdateTaskBranchKeepsValid(s, taskId, b, now);
    assert TasksKept(s, s1);
    var w := MoveToColumn(s1, taskId, "Doing", "task_started",
                          "Task #" + IntToString(taskId) + ": created branch " + b, now);
    TaskWriteFirst(s, s1, w, "task_started", now);
    Reply(w.board, w.status, [Write(Tasks)] + w.trace)
  }

  /** `start_command`: creates and checks out the task's branch, records
      it, and moves the task to Doing. Git is asked before the store is
      written, so a git failure leaves the store as it was. */
  function StartTask(s: Store, taskId: U32, git: GitAnswers, now: int): (r: Reply)
    requires Valid(s)
    ensures Settled(s, r, true, "task_started", now)
    ensures r.status.Ok? <==>
      git.repository && taskId in s.tasks && git.branchCreated && git.checkedOut && HasColumn(s, "Doing")
    ensures !git.repository ==> r.status == Err(GitFailure(Discover))
    ensures git.repository && taskId !in s.tasks ==> r.status == Err(TaskNotFound(taskId))
    ensures git.repository && taskId in s.tasks && !git.branchCreated ==>
      r.status == Err(GitFailure(CreateBranch))
    ensures git.repository && taskId in s.tasks && git.branchCreated && !git.checkedOut ==>
      r.status == Err(GitFailure(Checkout))
    ensures !(git.repository && taskId in s.tasks && git.branchCreated && git.checkedOut) ==> r.board == s
    ensures OnlyTasksUpdated(s, r.board)
    ensures forall k :: k in s.tasks && k != taskId ==> r.board.tasks[k] == s.tasks[k]
    ensures git.repository && taskId in s.tasks && git.branchCreated && git.checkedOut ==>
      var b := Branch.BranchName(taskId, s.tasks[taskId].title);
      && |r.trace| >= 3
      && r.trace[..3] == [Git(Discover, ""), Git(CreateBranch, b), Git(Checkout, b)]
      && (r.status.Ok? ==>
            && r.board.tasks[taskId] == s.tasks[taskId].(branchName := Some(b), updatedAt := now,
                                                         columnId := GetColumnByName(s, "Doing").value.id)
            && LoggedOnce(s, r.board, "task_started", "Task #" + IntToString(taskId) + ": created branch " + b, now))
      && (r.status.Err? ==> r.board.tasks[taskId] == s.tasks[taskId].(branchName := Some(b), updatedAt := now))
  {
    var g := StartGate(s, taskId, git);
    if g.Refused? then Refuse(s, g.error, g.calls)
    else
      var w := StartWrites(s, taskId, g.value, now);
      assert (g.calls + w.trace)[..3] == g.calls;
      Proceed(s, g.calls, w, "task_started", now)
  }

  // ----- done -----

  /** The commit message of `done`: the given one, or `Closes #{id}: {title}`. */
  function CommitMessage(message: Option<string>, taskId: U32, title: string): string
  {
    message.GetOr("Closes #" + IntToString(taskId) + ": " + title)
  }

  /** The git calls of `done` after the status query: a commit when
      changes are staged, then a push when the task has a branch; the
      commit, when there is one, comes first. */
  function FinishCalls(staged: bool, m: string, branch: Option<string>): (r: seq<Effect>)
    ensures NoWrites(r)
    ensures Git(Commit, m) in r <==> staged
    ensures forall b :: Git(Push, b) in r <==> branch == Some(b)
    ensures forall i :: 0 <= i < |r| && r[i] == Git(Commit, m) ==> i == 0
  {
    (if staged then [Git(Commit, m)] else []) + (if branch.Some? then [Git(Push, branch.value)] else [])
  }

  /** The git side of `done`: find the repository and the task, query the
      status, commit what is staged and push the task's branch. */
  function FinishGate(s: Store, taskId: U32, message: Option<string>, git: GitAnswers): (g: Gate<()>)
    ensures NoWrites(g.calls)
    ensures g.Cleared? <==>
      && git.repository && taskId in s.tasks && git.staged.Some?
      && (git.staged.value ==> git.committed)
    ensures !git.repository ==> g.error == GitFailure(Discover)
    ensures git.repository && taskId !in s.tasks ==> g.error == TaskNotFound(taskId)
    ensures git.repository && taskId in s.tasks && git.staged.None? ==> g.error == GitFailure(Status)
    ensures git.repository && taskId in s.tasks && git.staged == Some(true) && !git.committed ==>
      g.error == GitFailure(Commit)
    ensures git.repository && taskId in s.tasks && git.staged.Some? ==>
      var m := CommitMessage(message, taskId, s.tasks[taskId].title);
      && (Git(Commit, m) in g.calls <==> git.staged.value)
      && (forall b :: Git(Push, b) in g.calls <==>
            (git.staged.value ==> git.committed) && s.tasks[taskId].branchName == Some(b))
  {
    var discovered := [Git(Discover, "")];
    if !git.repository then Refused(GitFailure(Discover), discovered)
    else
      var task := GetTask(s, taskId);
      if task.None? then Refused(TaskNotFound(taskId), discovered)
      else
        var queried := discovered + [Git(Status, "")];
        if git.staged.None? then Refused(GitFailure(Status), queried)
        else
          var m := CommitMessage(message, taskId, task.value.title);
          if git.staged.value && !git.committed then
            Refused(GitFailure(Commit), queried + [Git(Commit, m)])
          else
            Cleared(queried + FinishCalls(git.staged.value, m, task.value.branchName), ())
  }

  /** `done_command`: commits when changes are staged, pushes the task's
      branch when it has one, then moves the task to Done. Only the
      column and the update time of the task change; its branch and pull
      request stay as they were. */
  function FinishTask(s: Store, taskId: U32, message: Option<string>, git: GitAnswers, now: int): (r: Reply)
    requires Valid(s)
    ensures Settled(s, r, true, "task_completed", now)
    ensures r.status.Ok? <==>
      && git.repository && taskId in s.tasks && git.staged.Some?
      && (git.staged.value ==> git.committed) && HasColumn(s, "Done")
    ensures !git.repository ==> r.status == Err(GitFailure(Discover))
    ensures git.repository && taskId !in s.tasks ==> r.status == Err(TaskNotFound(taskId))
    ensures git.repository && taskId in s.tasks && git.staged.None? ==> r.status == Err(GitFailure(Status))
    ensures git.repository && taskId in s.tasks && git.staged == Some(true) && !git.committed ==>
      r.status == Err(GitFailure(Commit))
    ensures r.status.Err? ==> r.board == s
    ensures OnlyTasksUpdated(s, r.board)
    ensures r.status.Ok? ==>
      && (forall k :: k in s.tasks && k != taskId ==> r.board.tasks[k] == s.tasks[k])
      && r.board.tasks[taskId]
         == s.tasks[taskId].(columnId := GetColumnByName(s, "Done").value.id, updatedAt := now)
      && LoggedOnce(s, r.board, "task_completed", TaskLine(taskId, s.tasks[taskId].title), now)
  {
    var g := FinishGate(s, taskId, message, git);
    if g.Refused? then Refuse(s, g.error, g.calls)
    else Proceed(s, g.calls, MoveToColumn(s, taskId, "Done", "task_completed", TaskLine(taskId, s.tasks[taskId].title), now),
                 "task_completed", now)
  }

  /** `done` commits exactly when changes are staged, and pushes the
      task's branch, when it has one, unless the commit failed. */
  lemma FinishTaskGitCalls(s: Store, taskId: U32, message: Option<string>, git: GitAnswers, now: int)
    requires Valid(s) && git.repository && taskId in s.tasks && git.staged.Some?
    ensures var r := FinishTask(s, taskId, message, git, now);
      var m := CommitMessage(message, taskId, s.tasks[taskId].title);
      && (Git(Commit, m) in r.trace <==> git.staged.value)
      && (forall b :: Git(Push, b) in r.trace <==>
            (git.staged.value ==> git.committed) && s.tasks[taskId].branchName == Some(b))
  {
    var g := FinishGate(s, taskId, message, git);
    if g.Cleared? {
      CallsThenWrites(g.calls, MoveToColumn(s, taskId, "Done", "task_completed", TaskLine(taskId, s.tasks[taskId].title), now).trace);
    }
  }

  // ----- submit -----

  /** The branch pull requests are opened against. */
  const BaseBranch := "main"

  /** What is recorded when no pull request can be opened. */
  function ManualPr(b: string): string
  {
    "Manual PR needed for branch: " + b
  }

  /** What is recorded when the pull-request service fails: a compare URL
      whose owner and repository are the literal words `owner` and `repo`,
      not the remote's. */
  function FailedPrUrl(b: string): string
  {
    GitHub.RepoUrl("owner", "repo") + "/compare/" + BaseBranch + "..." + b
  }

  /** The pull-request URL `submit` records for branch `b`, and the request
      it makes on the way. Only a GitHub remote gets a request. */
  function PrUrl(remote: Option<string>, client: GitHub.ReviewClient,
                 taskId: U32, task: Task, b: string): (r: (string, seq<Effect>))
    ensures NoWrites(r.1)
    ensures (remote.None? || GitHub.ExtractGitHubInfo(remote.value).None?) ==>
      r.0 == ManualPr(b) && r.1 == []
    ensures remote.Some? && GitHub.ExtractGitHubInfo(remote.value).Some? ==>
      var (owner, repo) := GitHub.ExtractGitHubInfo(remote.value).value;
      && r.1 == [PullRequest(owner, repo, TaskLine(taskId, task.title), task.description.GetOr(""), b, BaseBranch)]
      && (client.Placeholder? ==> GitHub.RepoUrl(owner, repo) + "/" <= r.0)
      && (client == GitHub.Placeholder(None) ==>
            r.0 == GitHub.RepoUrl(owner, repo) + "/compare/" + BaseBranch + "..." + b)
      && (client.Networked? && client.answer.Some? ==> r.0 == client.answer.value)
      && (client.Networked? && client.answer.None? ==> r.0 == FailedPrUrl(b))
  {
    if remote.None? then (ManualPr(b), [])
    else
      match GitHub.ExtractGitHubInfo(remote.value)
      case None => (ManualPr(b), [])
      case Some((owner, repo)) =>
        var title := TaskLine(taskId, task.title);
        var body := task.description.GetOr("");
        var answer := GitHub.OpenPullRequest(client, owner, repo, title, body, b, BaseBranch);
        (if answer.Some? then answer.value else FailedPrUrl(b),
         [PullRequest(owner, repo, title, body, b, BaseBranch)])
  }

  /** The remote URL as `get_remote_url` reports it, when it is readable. */
  function RemoteUrl(remote: RemoteAnswer): Option<string>
    requires !remote.UrlNotUtf8?
  {
    if remote.Origin? then Some(remote.url) else None
  }

  /** The outside side of `submit`: find the repository, the task and its
      branch, push the branch, look up the remote and ask for a pull
      request; the gate hands over the URL to record. */
  function SubmitGate(s: Store, taskId: U32, env: Env): (g: Gate<string>)
    ensures NoWrites(g.calls)
    ensures g.Cleared? <==>
      && env.git.repository && taskId in s.tasks && s.tasks[taskId].branchName.Some?
      && !env.git.remote.UrlNotUtf8?
    ensures !env.git.repository ==> g.error == GitFailure(Discover)
    ensures env.git.repository && taskId !in s.tasks ==> g.error == TaskNotFound(taskId)
    ensures env.git.repository && taskId in s.tasks && s.tasks[taskId].branchName.None? ==>
      g == Refused(NoBranch(taskId), [Git(Discover, "")])
    ensures env.git.repository && taskId in s.tasks && s.tasks[taskId].branchName.Some?
            && env.git.remote.UrlNotUtf8? ==>
      g.error == GitFailure(RemoteLookup)
    ensures env.git.repository && taskId in s.tasks && s.tasks[taskId].branchName.Some? ==>
      var b := s.tasks[taskId].branchName.value;
      |g.calls| >= 3 && g.calls[..3] == [Git(Discover, ""), Git(Push, b), Git(RemoteLookup, "")]
    ensures g.Cleared? ==>
      var t := s.tasks[taskId];
      g.value == PrUrl(RemoteUrl(env.git.remote), env.review, taskId, t, t.branchName.value).0
  {
    var discovered := [Git(Discover, "")];
    if !env.git.repository then Refused(GitFailure(Discover), discovered)
    else
      var task := GetTask(s, taskId);
      if task.None? then Refused(TaskNotFound(taskId), discovered)
      else if task.value.branchName.None? then Refused(NoBranch(taskId), discovered)
      else
        var b := task.value.branchName.value;
        var looked := discovered + [Git(Push, b), Git(RemoteLookup, "")];
        if env.git.remote.UrlNotUtf8? then Refused(GitFailure(RemoteLookup), looked)
        else
          var (url, request) := PrUrl(RemoteUrl(env.git.remote), env.review, taskId, task.value, b);
          assert (looked + request)[..3] == looked;
          Cleared(looked + request, url)
  }

  /** The store writes of `submit`: the pull-request URL is recorded first,
      and only then is the Review column looked up, so without it the URL
      stays recorded. */
  function SubmitWrites(s: Store, taskId: U32, url: string, now: int): (r: Reply)
    requires Valid(s) && taskId in s.tasks
    ensures Settled(s, r, true, "task_submitted", now) && OnlyWrites(r.trace)
    ensures r.status.Ok? <==> HasColumn(s, "Review")
    ensures r.status.Err? ==> r.status == Err(ColumnNotFound("Review"))
    ensures OnlyTasksUpdated(s, r.board)
    ensures forall k :: k in s.tasks && k != taskId ==> r.board.tasks[k] == s.tasks[k]
    ensures r.status.Ok? ==>
      && r.board.tasks[taskId] == s.tasks[taskId].(prUrl := Some(url), updatedAt := now,
                                                   columnId := GetColumnByName(s, "Review").value.id)
      && LoggedOnce(s, r.board, "task_submitted", TaskLine(taskId, "PR created"), now)
    ensures r.status.Err? ==>
      r.board.tasks[taskId] == s.tasks[taskId].(prUrl := Some(url), updatedAt := now)
  {
    var s1 := UpdateTaskPr(s, taskId, url, now);
    UpdateTaskPrKeepsValid(s, taskId, url, now);
    assert TasksKept(s, s1);
    var w := MoveToColumn(s1, taskId, "Review", "task_submitted", TaskLine(taskId, "PR created"), now);
    TaskWriteFirst(s, s1, w, "task_submitted", now);
    Reply(w.board, w.status, [Write(Tasks)] + w.trace)
  }

  /** `submit_command`: pushes the task's branch, opens a pull request when
      the remote is on GitHub, records the URL and moves the task to Review.
      A task without a branch is refused before anything happens. */
  function SubmitTask(s: Store, taskId: U32, env: Env, now: int): (r: Reply)
    requires Valid(s)
    ensures Settled(s, r, true, "task_submitted", now)
    ensures r.status.Ok? <==>
      && env.git.repository && taskId in s.tasks && s.tasks[taskId].branchName.Some?
      && !env.git.remote.UrlNotUtf8? && HasColumn(s, "Review")
    ensures !env.git.repository ==> r.status == Err(GitFailure(Discover))
    ensures env.git.repository && taskId !in s.tasks ==> r.status == Err(TaskNotFound(taskId))
    ensures env.git.repository && taskId in s.tasks && s.tasks[taskId].branchName.None? ==>
      r.status == Err(NoBranch(taskId)) && r.trace == [Git(Discover, "")]
    ensures env.git.repository && taskId in s.tasks && s.tasks[taskId].branchName.Some?
            && env.git.remote.UrlNotUtf8? ==>
      r.status == Err(GitFailure(RemoteLookup))
    ensures (!env.git.repository || taskId !in s.tasks || s.tasks[taskId].branchName.None?
             || env.git.remote.UrlNotUtf8?) ==> r.board == s
    ensures OnlyTasksUpdated(s, r.board)
    ensures forall k :: k in s.tasks && k != taskId ==> r.board.tasks[k] == s.tasks[k]
    ensures env.git.repository && taskId in s.tasks && s.tasks[taskId].branchName.Some? ==>
      var b := s.tasks[taskId].branchName.value;
      |r.trace| >= 3 && r.trace[..3] == [Git(Discover, ""), Git(Push, b), Git(RemoteLookup, "")]
    ensures env.git.repository && taskId in s.tasks && s.tasks[taskId].branchName.Some?
            && !env.git.remote.UrlNotUtf8? ==>
      var t := s.tasks[taskId];
      var url := PrUrl(RemoteUrl(env.git.remote), env.review, taskId, t, t.branchName.value).0;
      && (r.status.Ok? ==>
            && r.board.tasks[taskId] == t.(prUrl := Some(url), updatedAt := now,
                                           columnId := GetColumnByName(s, "Review").value.id)
            && LoggedOnce(s, r.board, "task_submitted", TaskLine(taskId, "PR created"), now))
      && (r.status.Err? ==> r.board.tasks[taskId] == t.(prUrl := Some(url), updatedAt := now))
  {
    var g := SubmitGate(s, taskId, env);
    if g.Refused? then Refuse(s, g.error, g.calls)
    else
      var w := SubmitWrites(s, taskId, g.value, now);
      assert (g.calls + w.trace)[..3] == g.calls[..3];
      Proceed(s, g.calls, w, "task_submitted", now)
  }

  // ----- review -----

  /** `review_command`: reports on the task's pull request; it writes
      nothing and calls nothing. */
  function ReviewTask(s: Store, taskId: U32): (r: Reply)
    requires Valid(s)
    ensures Settled(s, r, false, "", 0)
    ensures r.board == s && r.trace == []
    ensures r.status.Ok? <==> taskId in s.tasks
    ensures r.status.Err? ==> r.status == Err(TaskNotFound(taskId))
  {
    if taskId in s.tasks then Reply(s, Ok(()), []) else Refuse(s, TaskNotFound(taskId), [])
  }

  // ----- Dispatch -----

  /** Every command but `review` writes one log entry when it succeeds. */
  predicate Logs(cmd: Command) { !cmd.Review? }

  /** The event name each logging command records. */
  function EventTag(cmd: Command): string
  {
    match cmd
    case Add(_, _) => "task_created"
    case Move(_, _) => "task_moved"
    case CommentOn(_, _) => "comment_added"
    case NewIdea(_) => "idea_created"
    case Promote(_) => "idea_promoted"
    case Start(_) => "task_started"
    case Finish(_, _) => "task_completed"
    case Submit(_) => "task_submitted"
    case Review(_) => ""
  }

  /** The command `main` dispatches to. */
  function Dispatch(s: Store, cmd: Command, env: Env, now: int): Reply
    requires Valid(s)
  {
    match cmd
    case Add(title, description) => AddTask(s, title, description, now)
    case Move(id, column) => MoveTask(s, id, column, now)
    case CommentOn(id, text) => CommentOnTask(s, id, text, env.gitUser, now)
    case NewIdea(content) => RecordIdea(s, content, now)
    case Promote(id) => PromoteIdea(s, id, now)
    case Start(id) => StartTask(s, id, env.git, now)
    case Finish(id, message) => FinishTask(s, id, message, env.git, now)
    case Submit(id) => SubmitTask(s, id, env, now)
    case Review(id) => ReviewTask(s, id)
  }

  /** Whatever the command, its reply is settled: it carries the event
      tag the command logs under, and `review` changes and calls nothing. */
  lemma DispatchSettled(s: Store, cmd: Command, env: Env, now: int)
    requires Valid(s)
    ensures Settled(s, Dispatch(s, cmd, env, now), Logs(cmd), EventTag(cmd), now)
    ensures cmd.Review? ==> Dispatch(s, cmd, env, now).board == s && Dispatch(s, cmd, env, now).trace == []
  {
    match cmd
    case Add(title, description) => var r := AddTask(s, title, description, now);
    case Move(id, column) => var r := MoveTask(s, id, column, now);
    case CommentOn(id, text) => var r := CommentOnTask(s, id, text, env.gitUser, now);
    case NewIdea(content) => var r := RecordIdea(s, content, now);
    case Promote(id) => var r := PromoteIdea(s, id, now);
    case Start(id) => var r := StartTask(s, id, env.git, now);
    case Finish(id, message) => var r := FinishTask(s, id, message, env.git, now);
    case Submit(id) => var r := SubmitTask(s, id, env, now);
    case Review(id) => var r := ReviewTask(s, id);
  }

  /** Opens the store before running a command (`get_database`): without
      an initialised board every command fails with nothing done. */
  method Run(db: Option<Store>, cmd: Command, env: Env, now: int) returns (r: Result<Reply>)
    requires db.Some? ==> Valid(db.value)
    ensures r.Err? <==> db.None?
    ensures r.Err? ==> r.error == NotInitialized
    ensures r.Ok? ==> Settled(db.value, r.value, Logs(cmd), EventTag(cmd), now)
  {
    if db.None? {
      r := Err(NotInitialized);
    } else {
      DispatchSettled(db.value, cmd, env, now);
      r := Ok(Dispatch(db.value, cmd, env, now));
    }
  }

  /** What one command keeps of the tasks, two commands in a row keep too. */
  lemma TasksKeptTransitive(s: Store, s': Store, s'': Store)
    requires TasksKept(s, s') && TasksKept(s', s'')
    ensures TasksKept(s, s'')
  {
  }

  /** One command of a session, with what the world answered and the time. */
  datatype Step = Step(cmd: Command, env: Env, now: int)

  /** A session's commands run one after the other, each on the store
      the previous one left: the final store and each command's reply. */
  function Session(s: Store, steps: seq<Step>): (r: (Store, seq<Reply>))
    requires Valid(s)
    ensures Valid(r.0) && |r.1| == |steps|
    decreases |steps|
  {
    if steps == [] then (s, [])
    else
      var (t, replies) := Session(s, steps[..|steps| - 1]);
      var last := steps[|steps| - 1];
      DispatchSettled(t, last.cmd, last.env, last.now);
      var reply := Dispatch(t, last.cmd, last.env, last.now);
      (reply.board, replies + [reply])
  }

  /** How many of the steps are logging commands that succeeded. */
  function LoggedSteps(steps: seq<Step>, replies: seq<Reply>): nat
    requires |replies| == |steps|
  {
    if steps == [] then 0
    else LoggedSteps(steps[..|steps| - 1], replies[..|replies| - 1])
         + (if replies[|replies| - 1].status.Ok? && Logs(steps[|steps| - 1].cmd) then 1 else 0)
  }

  /** A session one step longer runs that step on the store the shorter one left. */
  lemma SessionStep(s: Store, steps: seq<Step>, i: nat)
    requires Valid(s) && i < |steps|
    ensures var (t, replies) := Session(s, steps[..i]);
      var reply := Dispatch(t, steps[i].cmd, steps[i].env, steps[i].now);
      Session(s, steps[..i + 1]) == (reply.board, replies + [reply])
  {
    assert steps[..i + 1][..i] == steps[..i];
  }

  /** One step more adds one to the count exactly when it is a logging
      command that succeeded. */
  lemma LoggedStep(steps: seq<Step>, replies: seq<Reply>, i: nat, reply: Reply)
    requires i < |steps| && |replies| == i
    ensures LoggedSteps(steps[..i + 1], replies + [reply])
         == LoggedSteps(steps[..i], replies) + (if reply.status.Ok? && Logs(steps[i].cmd) then 1 else 0)
  {
    var longer, more := steps[..i + 1], replies + [reply];
    assert longer[..|longer| - 1] == steps[..i] && longer[|longer| - 1] == steps[i];
    assert more[..|more| - 1] == replies && more[|more| - 1] == reply;
  }

  /** Runs a session: the store it ends with, each command's reply, and how
      many log entries it added. The log is only ever appended to, by
      exactly one entry per successful logging command; columns and
      projects never change, and no task is lost. */
  method Replay(s: Store, steps: seq<Step>) returns (t: Store, replies: seq<Reply>, logged: nat)
    requires Valid(s)
    ensures (t, replies) == Session(s, steps)
    ensures logged == LoggedSteps(steps, replies)
    ensures s.activity <= t.activity && |t.activity| == |s.activity| + logged
    ensures t.columns == s.columns && t.projects == s.projects
    ensures TasksKept(s, t)
  {
    t, replies, logged := s, [], 0;
    for i := 0 to |steps|
      invariant (t, replies) == Session(s, steps[..i])
      invariant logged == LoggedSteps(steps[..i], replies)
      invariant s.activity <= t.activity && |t.activity| == |s.activity| + logged
      invariant t.columns == s.columns && t.projects == s.projects
      invariant TasksKept(s, t)
    {
      var step := steps[i];
      DispatchSettled(t, step.cmd, step.env, step.now);
      var reply := Dispatch(t, step.cmd, step.env, step.now);
      TasksKeptTransitive(s, t, reply.board);
      SessionStep(s, steps, i);
      LoggedStep(steps, replies, i, reply);
      t, replies := reply.board, replies + [reply];
      if reply.status.Ok? && Logs(step.cmd) {
        logged := logged + 1;
      }
    }
    assert steps[..|steps|] == steps;
  }
}

=== FILE: csv.dfy ===
/**
 * CSV field escaping used by `export --format csv`, and a reader for the
 * quoting rules of RFC 4180 (section 2, rules 5-7) that serves as its
 * inverse: a field containing a comma, a double quote or a line break is
 * enclosed in double quotes, and each double quote inside it is doubled.
 */
module Csv {
  import opened Text

  predicate NeedsQuoting(s: string) { ',' in s || '"' in s || '\n' in s }

  /** `text.replace('"', "\"\"")`. */
  function DoubleQuotes(s: string): (r: string)
    ensures |r| == |s| + Count(s, '"')
  {
    if s == [] then [] else (if s[0] == '"' then "\"\"" else [s[0]]) + DoubleQuotes(s[1..])
  }

  /** `escape_csv`. */
  function EscapeField(text: string): (r: string)
    ensures !NeedsQuoting(text) ==> r == text
    ensures NeedsQuoting(text) ==> |r| >= 2 && r[0] == '"' && r[|r| - 1] == '"'
    ensures NeedsQuoting(text) ==> r[1..|r| - 1] == DoubleQuotes(text)
  {
    if NeedsQuoting(text) then "\"" + DoubleQuotes(text) + "\"" else text
  }

  /** Inside an escaped field every double quote belongs to a doubled pair,
      so a lone `"` can only be the closing one (RFC 4180 rule 7). */
  lemma {:induction false} QuotesArePaired(s: string, i: nat)
    requires i < |DoubleQuotes(s)| && DoubleQuotes(s)[i] == '"'
    ensures (i + 1 < |DoubleQuotes(s)| && DoubleQuotes(s)[i + 1] == '"')
         || (i > 0 && DoubleQuotes(s)[i - 1] == '"')
  {
    var head := if s[0] == '"' then "\"\"" else [s[0]];
    assert DoubleQuotes(s) == head + DoubleQuotes(s[1..]);
    if i >= |head| {
      QuotesArePaired(s[1..], i - |head|);
    }
  }

  /** Undoes `DoubleQuotes`: each `""` becomes `"`. */
  function UndoubleQuotes(s: string): string
    decreases |s|
  {
    if s == [] then []
    else if |s| >= 2 && s[0] == '"' && s[1] == '"' then "\"" + UndoubleQuotes(s[2..])
    else [s[0]] + UndoubleQuotes(s[1..])
  }

  /** Strips the enclosing quotes of a quoted field and un-doubles its quotes;
      an unquoted field is returned as it is. */
  function UnescapeField(field: string): string
  {
    if |field| >= 2 && field[0] == '"' && field[|field| - 1] == '"'
    then UndoubleQuotes(field[1..|field| - 1])
    else field
  }

  lemma {:induction false} UndoubleDouble(s: string)
    ensures UndoubleQuotes(DoubleQuotes(s)) == s
  {
    if s != [] {
      var head := if s[0] == '"' then "\"\"" else [s[0]];
      assert DoubleQuotes(s) == head + DoubleQuotes(s[1..]);
      assert (head + DoubleQuotes(s[1..]))[|head|..] == DoubleQuotes(s[1..]);
      UndoubleDouble(s[1..]);
      assert s == [s[0]] + s[1..];
    }
  }

  /** Escaping a field and unescaping it gives back the field. */
  lemma EscapeRoundTrip(text: string)
    ensures UnescapeField(EscapeField(text)) == text
  {
    if NeedsQuoting(text) {
      UndoubleDouble(text);
    } else if |text| >= 2 {
      assert text[0] != '"';
    }
  }

  // ----- Reading a record back -----

  /** Reads the body of a quoted field, just after its opening quote:
      the field's content and what follows the closing quote. */
  function ReadQuoted(s: string): (r: (string, string))
    ensures |r.1| <= |s|
    decreases |s|
  {
    if s == [] then ("", "")
    else if s[0] == '"' then
      if |s| >= 2 && s[1] == '"' then
        var (f, rest) := ReadQuoted(s[2..]);
        ("\"" + f, rest)
      else ("", s[1..])
    else
      var (f, rest) := ReadQuoted(s[1..]);
      ([s[0]] + f, rest)
  }

  /** Reads an unquoted field: everything up to the next comma. */
  function ReadPlain(s: string): (r: (string, string))
    ensures |r.1| <= |s|
  {
    var k := IndexOf(s, ',');
    (s[..k], s[k..])
  }

  /** Reads one field; the remainder is empty or starts at the separator. */
  function ReadField(s: string): (r: (string, string))
    ensures |r.1| <= |s|
  {
    if |s| > 0 && s[0] == '"' then ReadQuoted(s[1..]) else ReadPlain(s)
  }

  /** Reads one CSV record into its fields. */
  function ParseRecord(s: string): (fields: seq<string>)
    ensures |fields| >= 1
    decreases |s|
  {
    var (f, rest) := ReadField(s);
    if |rest| > 0 && rest[0] == ',' then [f] + ParseRecord(rest[1..]) else [f]
  }

  /** Joins fields with commas (the `{},{},…` of the export row). */
  function JoinFields(fields: seq<string>): string
    requires |fields| >= 1
  {
    JoinWith(fields, ',')
  }

  function EscapeAll(fields: seq<string>): (r: seq<string>)
    ensures |r| == |fields|
    ensures forall i :: 0 <= i < |fields| ==> r[i] == EscapeField(fields[i])
  {
    seq(|fields|, i requires 0 <= i < |fields| => EscapeField(fields[i]))
  }

  /** A separator (or nothing) may follow a field. */
  predicate FieldEnd(rest: string) { rest == [] || rest[0] == ',' }

  lemma {:induction false} ReadQuotedDoubled(f: string, rest: string)
    requires FieldEnd(rest)
    ensures ReadQuoted(DoubleQuotes(f) + "\"" + rest) == (f, rest)
  {
    var s := DoubleQuotes(f) + "\"" + rest;
    if f == [] {
      assert s == ['"'] + rest;
      assert s[1..] == rest;
    } else {
      var tail := DoubleQuotes(f[1..]) + "\"" + rest;
      ReadQuotedDoubled(f[1..], rest);
      if f[0] == '"' {
        assert DoubleQuotes(f) == "\"\"" + DoubleQuotes(f[1..]);
        assert s == ['"', '"'] + tail;
        assert s[2..] == tail;
        assert ReadQuoted(s) == (['"'] + f[1..], rest);
      } else {
        assert DoubleQuotes(f) == [f[0]] + DoubleQuotes(f[1..]);
        assert s == [f[0]] + tail;
        assert s[1..] == tail;
        assert ReadQuoted(s) == ([f[0]] + f[1..], rest);
      }
      assert f == [f[0]] + f[1..];
    }
  }

  lemma ReadQuotedField(f: string, rest: string)
    requires FieldEnd(rest) && NeedsQuoting(f)
    ensures ReadField(EscapeField(f) + rest) == (f, rest)
  {
    var body := DoubleQuotes(f) + "\"" + rest;
    var s := EscapeField(f) + rest;
    assert s == ['"'] + body;
    assert s[1..] == body;
    ReadQuotedDoubled(f, rest);
  }

  lemma ReadPlainField(f: string, rest: string)
    requires FieldEnd(rest) && !NeedsQuoting(f)
    ensures ReadField(f + rest) == (f, rest)
  {
    var s := f + rest;
    IndexOfAppend(f, rest, ',');
    assert IndexOf(rest, ',') == 0;
    assert s[..|f|] == f && s[|f|..] == rest;
    if |f| > 0 {
      assert s[0] == f[0];
    }
  }

  /** An escaped field followed by a separator is read back as the field. */
  lemma ReadEscapedField(f: string, rest: string)
    requires FieldEnd(rest)
    ensures ReadField(EscapeField(f) + rest) == (f, rest)
  {
    if NeedsQuoting(f) {
      ReadQuotedField(f, rest);
    } else {
      ReadPlainField(f, rest);
    }
  }

  /** Escaping every field and joining them with commas is undone by
      `ParseRecord`: field content never spills into a neighbouring column. */
  lemma {:induction false} RecordRoundTrip(fields: seq<string>)
    requires |fields| >= 1
    ensures ParseRecord(JoinFields(EscapeAll(fields))) == fields
  {
    var e := EscapeAll(fields);
    if |fields| == 1 {
      ReadEscapedField(fields[0], []);
      assert JoinFields(e) == EscapeField(fields[0]) + [];
    } else {
      var tail := JoinFields(e[1..]);
      var sep := [','] + tail;
      assert JoinFields(e) == EscapeField(fields[0]) + sep;
      ReadEscapedField(fields[0], sep);
      assert ReadField(JoinFields(e)) == (fields[0], sep);
      assert sep[1..] == tail;
      assert EscapeAll(fields[1..]) == e[1..];
      RecordRoundTrip(fields[1..]);
      assert ParseRecord(JoinFields(e)) == [fields[0]] + fields[1..];
      assert fields == [fields[0]] + fields[1..];
    }
  }
}

=== FILE: db.dfy ===
/**
 * The board's persistent store (`Database`), as an immutable value. Each
 * SQL statement of the source becomes a function from store to store:
 * an `INSERT` adds a row, an `UPDATE … WHERE id = ?` rewrites one field
 * and `updated_at` of at most one row, a `DELETE … WHERE id = ?` removes
 * at most one key. Timestamps are the `now` the caller passes in.
 *
 * Tasks and ideas are maps keyed by id. The tables that are only ever
 * appended to (projects, columns, comments, the activity log) are
 * sequences in insertion order, and a row's id is its position plus one,
 * as SQLite assigns row ids to an append-only table.
 */
module Db {
  import opened Outcome
  import opened Sorting

  datatype Project = Project(id: int, name: string, repoPath: string)

  datatype Column = Column(id: int, name: string, order: int)

  datatype Task = Task(
    id: int,
    title: string,
    description: Option<string>,
    columnId: int,
    assignee: Option<string>,
    createdAt: int,
    updatedAt: int,
    branchName: Option<string>,
    prUrl: Option<string>)

  datatype Comment = Comment(id: int, taskId: int, author: string, text: string, createdAt: int)

  datatype Idea = Idea(id: int, content: string, createdAt: int)

  datatype Activity = Activity(id: int, event: string, metadata: Option<string>, createdAt: int)

  datatype Store = Store(
    projects: seq<Project>,
    columns: seq<Column>,
    tasks: map<int, Task>,
    nextTaskId: int,
    comments: seq<Comment>,
    ideas: map<int, Idea>,
    nextIdeaId: int,
    activity: seq<Activity>)

  /** The store right after the migrations ran: every table empty. */
  const Empty := Store([], [], map[], 1, [], map[], 1, [])

  /** Rows of an append-only table are numbered 1, 2, 3, … in insertion order. */
  predicate Numbered<T>(rows: seq<T>, id: T -> int)
  {
    forall i :: 0 <= i < |rows| ==> id(rows[i]) == i + 1
  }

  /** Every task is stored under its own id, below the next id to hand
      out, and sits in an existing column. */
  predicate TasksValid(tasks: map<int, Task>, nextTaskId: int, columnCount: int)
  {
    && nextTaskId >= 1
    && (forall k :: k in tasks ==> tasks[k].id == k && 1 <= k < nextTaskId)
    && (forall k :: k in tasks ==> 1 <= tasks[k].columnId <= columnCount)
  }

  /** Every comment belongs to an existing task. */
  predicate CommentsValid(comments: seq<Comment>, tasks: map<int, Task>)
  {
    forall i :: 0 <= i < |comments| ==> comments[i].id == i + 1 && comments[i].taskId in tasks
  }

  predicate IdeasValid(ideas: map<int, Idea>, nextIdeaId: int)
  {
    && nextIdeaId >= 1
    && (forall k :: k in ideas ==> ideas[k].id == k && 1 <= k < nextIdeaId)
  }

  /** What the database's keys and constraints guarantee about its rows. */
  predicate Valid(s: Store)
  {
    && Numbered(s.projects, (p: Project) => p.id)
    && Numbered(s.columns, (c: Column) => c.id)
    && TasksValid(s.tasks, s.nextTaskId, |s.columns|)
    && CommentsValid(s.comments, s.tasks)
    && IdeasValid(s.ideas, s.nextIdeaId)
    && Numbered(s.activity, (a: Activity) => a.id)
  }

  // ----- Projects -----

  /** `create_project`. */
  function CreateProject(s: Store, name: string, repoPath: string): (r: (Store, Project))
    ensures r.1 == Project(|s.projects| + 1, name, repoPath)
    ensures r.0 == s.(projects := s.projects + [r.1])
  {
    var p := Project(|s.projects| + 1, name, repoPath);
    (s.(projects := s.projects + [p]), p)
  }

  lemma CreateProjectKeepsValid(s: Store, name: string, repoPath: string)
    requires Valid(s)
    ensures Valid(CreateProject(s, name, repoPath).0)
  {
  }

  // ----- Columns -----

  /** The five columns `create_default_columns` inserts, with their `order`. */
  const DefaultColumns: seq<(string, int)> :=
    [("Backlog", 0), ("To Do", 1), ("Doing", 2), ("Review", 3), ("Done", 4)]

  /** Inserts the given columns one by one, as the loop of
      `create_default_columns` does, and returns the inserted rows. */
  function InsertColumns(s: Store, specs: seq<(string, int)>): (r: (Store, seq<Column>))
    ensures |r.1| == |specs|
    ensures forall i :: 0 <= i < |specs| ==>
      r.1[i] == Column(|s.columns| + i + 1, specs[i].0, specs[i].1)
    ensures r.0 == s.(columns := s.columns + r.1)
    decreases |specs|
  {
    if specs == [] then (s, [])
    else
      var c := Column(|s.columns| + 1, specs[0].0, specs[0].1);
      var (s', rest) := InsertColumns(s.(columns := s.columns + [c]), specs[1..]);
      assert s.columns + [c] + rest == s.columns + ([c] + rest);
      (s', [c] + rest)
  }

  /** `create_default_columns`. */
  function CreateDefaultColumns(s: Store): (r: (Store, seq<Column>))
    ensures |r.1| == 5
    ensures forall i :: 0 <= i < 5 ==> r.1[i].name == DefaultColumns[i].0 && r.1[i].order == i
    ensures r.0 == s.(columns := s.columns + r.1)
  {
    InsertColumns(s, DefaultColumns)
  }

  /** The new columns get the row ids that follow the existing ones. */
  lemma CreateDefaultColumnsKeepsValid(s: Store)
    requires Valid(s)
    ensures Valid(CreateDefaultColumns(s).0)
  {
    var r := CreateDefaultColumns(s);
    forall i | 0 <= i < |r.0.columns| ensures r.0.columns[i].id == i + 1 {
      if i >= |s.columns| {
        assert r.0.columns[i] == r.1[i - |s.columns|];
      }
    }
  }

  /** The `ORDER BY "order"` of `get_columns`. */
  predicate ColumnBefore(a: Column, b: Column) { a.order <= b.order }

  lemma ColumnBeforeIsPreorder()
    ensures TotalPreorder(ColumnBefore)
  {
  }

  /** `get_columns`: every column, ascending by `order`. */
  function GetColumns(s: Store): (r: seq<Column>)
    ensures multiset(r) == multiset(s.columns)
    ensures forall i, j :: 0 <= i < j < |r| ==> r[i].order <= r[j].order
  {
    ColumnBeforeIsPreorder();
    Sort(s.columns, ColumnBefore)
  }

  /** Columns inserted in order of their `order` come back as inserted. */
  lemma GetColumnsInOrder(s: Store)
    requires forall i, j :: 0 <= i < j < |s.columns| ==> s.columns[i].order <= s.columns[j].order
    ensures GetColumns(s) == s.columns
  {
    ColumnBeforeIsPreorder();
    SortSorted(s.columns, ColumnBefore);
  }

  /** The first column named `name`. */
  function FindColumn(columns: seq<Column>, name: string): (r: Option<Column>)
    ensures r.Some? ==> r.value in columns && r.value.name == name
    ensures r.None? <==> forall i :: 0 <= i < |columns| ==> columns[i].name != name
  {
    if columns == [] then None
    else if columns[0].name == name then Some(columns[0])
    else FindColumn(columns[1..], name)
  }

  /** The first column with a given name is the one at index `i` when no
      earlier column has that name. */
  lemma {:induction false} FindColumnAt(columns: seq<Column>, i: nat)
    requires i < |columns|
    requires forall j :: 0 <= j < i ==> columns[j].name != columns[i].name
    ensures FindColumn(columns, columns[i].name) == Some(columns[i])
  {
    if i > 0 {
      assert columns[1..][i - 1] == columns[i];
      FindColumnAt(columns[1..], i - 1);
    }
  }

  /** `get_column_by_name`. */
  function GetColumnByName(s: Store, name: string): Option<Column>
  {
    FindColumn(s.columns, name)
  }

  predicate HasColumn(s: Store, name: string)
  {
    GetColumnByName(s, name).Some?
  }

  /** In a valid store a named column exists as a row the tasks may refer to. */
  lemma ColumnByNameIsRow(s: Store, name: string)
    requires Valid(s) && HasColumn(s, name)
    ensures 1 <= GetColumnByName(s, name).value.id <= |s.columns|
  {
    var c := GetColumnByName(s, name).value;
    var i :| 0 <= i < |s.columns| && s.columns[i] == c;
  }

  /** The columns a fresh board gets: Backlog, To Do, Doing, Review and
      Done, with ids 1 to 5 and orders 0 to 4. */
  const FreshColumns := [Column(1, "Backlog", 0), Column(2, "To Do", 1), Column(3, "Doing", 2),
                         Column(4, "Review", 3), Column(5, "Done", 4)]

  /** No default column name comes before its own row, so each finds its own column. */
  lemma FreshColumnFound(i: nat)
    requires i < |FreshColumns|
    ensures FindColumn(FreshColumns, FreshColumns[i].name) == Some(FreshColumns[i])
  {
    var c := FreshColumns;
    if i == 1 {
      assert c[0].name[0] != c[1].name[0];
    } else if i == 2 {
      assert c[0].name[0] != c[2].name[0] && c[1].name[0] != c[2].name[0];
    } else if i == 3 {
      assert c[0].name[0] != c[3].name[0] && c[1].name[0] != c[3].name[0] && c[2].name[0] != c[3].name[0];
    } else if i == 4 {
      assert c[0].name[0] != c[4].name[0] && c[1].name[0] != c[4].name[0] && c[3].name[0] != c[4].name[0];
      assert |c[2].name| != |c[4].name|;
    }
    FindColumnAt(c, i);
  }

  /** On a board without columns, `create_default_columns` inserts exactly
      the five defaults. */
  lemma DefaultColumnsOnEmpty(s: Store)
    requires s.columns == []
    ensures CreateDefaultColumns(s).0.columns == FreshColumns
  {
    var r := CreateDefaultColumns(s);
    forall i | 0 <= i < 5 ensures r.1[i] == FreshColumns[i] {
      assert r.1[i] == Column(i + 1, DefaultColumns[i].0, DefaultColumns[i].1);
    }
  }

  /** On a board holding the defaults, `get_columns` lists them in their order ... */
  lemma FreshColumnsInOrder(s: Store)
    requires s.columns == FreshColumns
    ensures GetColumns(s) == FreshColumns
  {
    forall i, j | 0 <= i < j < |s.columns| ensures s.columns[i].order <= s.columns[j].order {
      assert s.columns[i].order == i && s.columns[j].order == j;
    }
    GetColumnsInOrder(s);
  }

  /** ... and `get_column_by_name` finds each by its name. */
  lemma FreshColumnsByName(s: Store)
    requires s.columns == FreshColumns
    ensures forall i :: 0 <= i < |FreshColumns| ==>
      GetColumnByName(s, FreshColumns[i].name) == Some(FreshColumns[i])
  {
    forall i | 0 <= i < |FreshColumns|
      ensures GetColumnByName(s, FreshColumns[i].name) == Some(FreshColumns[i])
    {
      FreshColumnFound(i);
    }
  }

  // ----- Tasks -----

  /** `create_task`: a new row with the next free id. */
  function CreateTask(s: Store, title: string, description: Option<string>, columnId: int, now: int): (r: (Store, Task))
    requires Valid(s)
    ensures r.1.id == s.nextTaskId && r.1.id !in s.tasks
    ensures r.1.title == title && r.1.description == description && r.1.columnId == columnId
    ensures r.1.createdAt == now && r.1.updatedAt == now
    ensures r.1.assignee.None? && r.1.branchName.None? && r.1.prUrl.None?
    ensures r.0.tasks == s.tasks[r.1.id := r.1]
    ensures r.0.(tasks := s.tasks, nextTaskId := s.nextTaskId) == s
    ensures 1 <= columnId <= |s.columns| ==> Valid(r.0)
  {
    var t := Task(s.nextTaskId, title, description, columnId, None, now, now, None, None);
    (s.(tasks := s.tasks[t.id := t], nextTaskId := s.nextTaskId + 1), t)
  }

  /** `get_task`. */
  function GetTask(s: Store, id: int): (r: Option<Task>)
    ensures r.Some? <==> id in s.tasks
    ensures r.Some? ==> r.value == s.tasks[id]
  {
    if id in s.tasks then Some(s.tasks[id]) else None
  }

  /** Fields of `t` other than `columnId` and `updatedAt` equal those of `u`. */
  predicate SameButColumn(t: Task, u: Task)
  {
    t.(columnId := u.columnId, updatedAt := u.updatedAt) == u
  }

  predicate SameButBranch(t: Task, u: Task)
  {
    t.(branchName := u.branchName, updatedAt := u.updatedAt) == u
  }

  predicate SameButPr(t: Task, u: Task)
  {
    t.(prUrl := u.prUrl, updatedAt := u.updatedAt) == u
  }

  /** The store differs from `s` at most in the task `id`. */
  predicate OnlyTaskChanged(s: Store, s': Store, id: int)
  {
    && s'.(tasks := s.tasks) == s
    && s'.tasks.Keys == s.tasks.Keys
    && (forall k :: k in s.tasks && k != id ==> s'.tasks[k] == s.tasks[k])
  }

  /** `update_task_column`. */
  function UpdateTaskColumn(s: Store, id: int, columnId: int, now: int): (r: Store)
    ensures OnlyTaskChanged(s, r, id)
    ensures id in s.tasks ==> r.tasks[id].columnId == columnId && r.tasks[id].updatedAt == now
    ensures id in s.tasks ==> SameButColumn(r.tasks[id], s.tasks[id])
    ensures id !in s.tasks ==> r == s
  {
    if id in s.tasks then s.(tasks := s.tasks[id := s.tasks[id].(columnId := columnId, updatedAt := now)])
    else s
  }

  lemma UpdateTaskColumnKeepsValid(s: Store, id: int, columnId: int, now: int)
    requires Valid(s) && 1 <= columnId <= |s.columns|
    ensures Valid(UpdateTaskColumn(s, id, columnId, now))
  {
  }

  /** `update_task_branch`. */
  function UpdateTaskBranch(s: Store, id: int, branch: string, now: int): (r: Store)
    ensures OnlyTaskChanged(s, r, id)
    ensures id in s.tasks ==> r.tasks[id].branchName == Some(branch) && r.tasks[id].updatedAt == now
    ensures id in s.tasks ==> SameButBranch(r.tasks[id], s.tasks[id])
    ensures id !in s.tasks ==> r == s
  {
    if id in s.tasks then s.(tasks := s.tasks[id := s.tasks[id].(branchName := Some(branch), updatedAt := now)])
    else s
  }

  lemma UpdateTaskBranchKeepsValid(s: Store, id: int, branch: string, now: int)
    requires Valid(s)
    ensures Valid(UpdateTaskBranch(s, id, branch, now))
  {
  }

  /** `update_task_pr`. */
  function UpdateTaskPr(s: Store, id: int, url: string, now: int): (r: Store)
    ensures OnlyTaskChanged(s, r, id)
    ensures id in s.tasks ==> r.tasks[id].prUrl == Some(url) && r.tasks[id].updatedAt == now
    ensures id in s.tasks ==> SameButPr(r.tasks[id], s.tasks[id])
    ensures id !in s.tasks ==> r == s
  {
    if id in s.tasks then s.(tasks := s.tasks[id := s.tasks[id].(prUrl := Some(url), updatedAt := now)])
    else s
  }

  lemma UpdateTaskPrKeepsValid(s: Store, id: int, url: string, now: int)
    requires Valid(s)
    ensures Valid(UpdateTaskPr(s, id, url, now))
  {
  }

  /** Whether `get_tasks(filter)` lists the task. */
  predicate Selected(t: Task, filter: Option<int>)
  {
    filter.None? || t.columnId == filter.value
  }

  /** `ORDER BY column_id, created_at DESC`. */
  predicate TaskBefore(a: Task, b: Task)
  {
    a.columnId < b.columnId || (a.columnId == b.columnId && a.createdAt >= b.createdAt)
  }

  lemma TaskBeforeIsPreorder()
    ensures TotalPreorder(TaskBefore)
  {
  }

  /** What `GetTasks` has built once every id below `next` has been looked at. */
  predicate Listing(s: Store, filter: Option<int>, r: seq<Task>, next: int)
  {
    && (forall i :: 0 <= i < |r| ==> r[i].id in s.tasks && s.tasks[r[i].id] == r[i])
    && (forall i :: 0 <= i < |r| ==> Selected(r[i], filter) && r[i].id < next)
    && (forall k :: k in s.tasks && Selected(s.tasks[k], filter) && k < next ==> s.tasks[k] in r)
    && Distinct(r)
    && Sorted(r, TaskBefore)
  }

  lemma ListingStep(s: Store, filter: Option<int>, r: seq<Task>, k: int)
    requires Valid(s) && Listing(s, filter, r, k)
    requires k in s.tasks && Selected(s.tasks[k], filter)
    ensures TotalPreorder(TaskBefore)
    ensures Listing(s, filter, Insert(s.tasks[k], r, TaskBefore), k + 1)
  {
    TaskBeforeIsPreorder();
    var t := s.tasks[k];
    assert t !in r;
    InsertKeepsDistinct(t, r, TaskBefore);
    var r' := Insert(t, r, TaskBefore);
    forall i | 0 <= i < |r'|
      ensures r'[i] == t || r'[i] in r
    {
      assert r'[i] in multiset(r');
    }
    forall j | j in s.tasks && Selected(s.tasks[j], filter) && j < k + 1
      ensures s.tasks[j] in r'
    {
      if j == k {
        assert t in multiset(r');
      } else {
        assert s.tasks[j] in r;
        assert s.tasks[j] in multiset(r);
        assert s.tasks[j] in multiset(r');
      }
    }
  }

  /** `get_tasks`: the tasks of one column (or all, for `None`), each once,
      by column and newest first within a column. */
  method GetTasks(s: Store, filter: Option<int>) returns (r: seq<Task>)
    requires Valid(s)
    ensures forall i :: 0 <= i < |r| ==> r[i].id in s.tasks && s.tasks[r[i].id] == r[i]
    ensures forall i :: 0 <= i < |r| ==> Selected(r[i], filter)
    ensures forall k :: k in s.tasks && Selected(s.tasks[k], filter) ==> s.tasks[k] in r
    ensures forall i, j :: 0 <= i < j < |r| ==> r[i].id != r[j].id
    ensures forall i, j :: 0 <= i < j < |r| ==> r[i].columnId <= r[j].columnId
    ensures forall i, j :: 0 <= i < j < |r| && r[i].columnId == r[j].columnId ==>
      r[i].createdAt >= r[j].createdAt
  {
    TaskBeforeIsPreorder();
    r := [];
    var next := 1;
    while next < s.nextTaskId
      invariant 1 <= next <= s.nextTaskId
      invariant Listing(s, filter, r, next)
      decreases s.nextTaskId - next
    {
      if next in s.tasks && Selected(s.tasks[next], filter) {
        ListingStep(s, filter, r, next);
        r := Insert(s.tasks[next], r, TaskBefore);
      }
      next := next + 1;
    }
    forall i, j | 0 <= i < j < |r| ensures r[i].id != r[j].id {
      assert r[i] != r[j];
    }
  }

  // ----- Comments -----

  /** `create_comment`. */
  function CreateComment(s: Store, taskId: int, author: string, text: string, now: int): (r: (Store, Comment))
    ensures r.1 == Comment(|s.comments| + 1, taskId, author, text, now)
    ensures r.0 == s.(comments := s.comments + [r.1])
  {
    var c := Comment(|s.comments| + 1, taskId, author, text, now);
    (s.(comments := s.comments + [c]), c)
  }

  /** A comment on an existing task keeps every comment attached to a task. */
  lemma CreateCommentKeepsValid(s: Store, taskId: int, author: string, text: string, now: int)
    requires Valid(s) && taskId in s.tasks
    ensures Valid(CreateComment(s, taskId, author, text, now).0)
  {
  }

  // ----- Ideas -----

  /** `create_idea`. */
  function CreateIdea(s: Store, content: string, now: int): (r: (Store, Idea))
    requires Valid(s)
    ensures r.1 == Idea(s.nextIdeaId, content, now) && r.1.id !in s.ideas
    ensures r.0.ideas == s.ideas[r.1.id := r.1]
    ensures r.0.(ideas := s.ideas, nextIdeaId := s.nextIdeaId) == s
    ensures Valid(r.0)
  {
    var idea := Idea(s.nextIdeaId, content, now);
    (s.(ideas := s.ideas[idea.id := idea], nextIdeaId := s.nextIdeaId + 1), idea)
  }

  /** `get_idea`. */
  function GetIdea(s: Store, id: int): (r: Option<Idea>)
    ensures r.Some? <==> id in s.ideas
    ensures r.Some? ==> r.value == s.ideas[id]
  {
    if id in s.ideas then Some(s.ideas[id]) else None
  }

  /** `delete_idea`: removes that idea and no other row. */
  function DeleteIdea(s: Store, id: int): (r: Store)
    ensures r.ideas.Keys == s.ideas.Keys - {id}
    ensures forall k :: k in r.ideas ==> r.ideas[k] == s.ideas[k]
    ensures r.(ideas := s.ideas) == s
    ensures id !in s.ideas ==> r == s
  {
    s.(ideas := s.ideas - {id})
  }

  lemma DeleteIdeaKeepsValid(s: Store, id: int)
    requires Valid(s)
    ensures Valid(DeleteIdea(s, id))
  {
  }

  // ----- Activity log -----

  /** `log_activity`: appends one entry; nothing else in the store changes. */
  function LogActivity(s: Store, event: string, metadata: Option<string>, now: int): (r: Store)
    ensures |r.activity| == |s.activity| + 1
    ensures r.activity[..|s.activity|] == s.activity
    ensures r.activity[|s.activity|] == Activity(|s.activity| + 1, event, metadata, now)
    ensures r.(activity := s.activity) == s
  {
    s.(activity := s.activity + [Activity(|s.activity| + 1, event, metadata, now)])
  }

  lemma LogActivityKeepsValid(s: Store, event: string, metadata: Option<string>, now: int)
    requires Valid(s)
    ensures Valid(LogActivity(s, event, metadata, now))
  {
  }

  /** `ORDER BY created_at DESC`. */
  predicate NewerFirst(a: Activity, b: Activity) { a.createdAt >= b.createdAt }

  lemma NewerFirstIsPreorder()
    ensures TotalPreorder(NewerFirst)
  {
  }

  const DefaultActivityLimit := 50

  /** The row count `LIMIT ?` lets through; SQLite reads a negative limit as none. */
  function LimitCount(limit: int, available: nat): (n: nat)
    ensures n <= available
    ensures 0 <= limit ==> n == if limit < available then limit else available
    ensures limit < 0 ==> n == available
  {
    if limit < 0 || available <= limit then available else limit
  }

  /** `get_activity_log`: at most `limit` entries (50 when absent), newest
      first, and none left out is newer than one returned. */
  function GetActivityLog(s: Store, limit: Option<int>): (r: seq<Activity>)
    ensures |r| == LimitCount(limit.GetOr(DefaultActivityLimit), |s.activity|)
    ensures limit.None? ==> |r| <= DefaultActivityLimit
    ensures forall i, j :: 0 <= i < j < |r| ==> r[i].createdAt >= r[j].createdAt
    ensures multiset(r) <= multiset(s.activity)
    ensures forall a, i :: a in multiset(s.activity) - multiset(r) && 0 <= i < |r| ==>
      a.createdAt <= r[i].createdAt
  {
    NewerFirstIsPreorder();
    var sorted := Sort(s.activity, NewerFirst);
    var n := LimitCount(limit.GetOr(DefaultActivityLimit), |s.activity|);
    NewestPrefix(s.activity, sorted, n);
    sorted[..n]
  }

  /** A prefix of a newest-first ordering of `all` holds newest entries of `all`. */
  lemma NewestPrefix(all: seq<Activity>, sorted: seq<Activity>, n: nat)
    requires n <= |sorted|
    requires Sorted(sorted, NewerFirst) && multiset(sorted) == multiset(all)
    ensures forall i, j :: 0 <= i < j < n ==> sorted[..n][i].createdAt >= sorted[..n][j].createdAt
    ensures multiset(sorted[..n]) <= multiset(all)
    ensures forall a, i :: a in multiset(all) - multiset(sorted[..n]) && 0 <= i < n ==>
      a.createdAt <= sorted[..n][i].createdAt
  {
    var r := sorted[..n];
    var tail := sorted[n..];
    assert sorted == r + tail;
    assert multiset(sorted) == multiset(r) + multiset(tail);
    forall i, j | 0 <= i < j < n ensures r[i].createdAt >= r[j].createdAt {
      assert NewerFirst(sorted[i], sorted[j]);
    }
    forall a, i | a in multiset(all) - multiset(r) && 0 <= i < n
      ensures a.createdAt <= r[i].createdAt
    {
      assert a in multiset(tail);
      var j :| 0 <= j < |tail| && tail[j] == a;
      assert NewerFirst(sorted[i], sorted[n + j]);
    }
  }
}

=== FILE: export.dfy ===
/**
 * `export --format csv`: a header line, then one line per task with its
 * id, title, description, column name, both timestamps, branch and pull
 * request. Only the title and the description are escaped. How a
 * timestamp is rendered (`%Y-%m-%d %H:%M:%S`) is the `stamp` the caller
 * passes in.
 */
module Export {
  import opened Outcome
  import opened Text
  import opened Db
  import opened Csv
  import Commands
  import Branch

  const Header := "ID,Title,Description,Column,Created,Updated,Branch,PR"

  /** The name of the task's column, or `Unknown` when no column has that id. */
  function ColumnName(columns: seq<Column>, columnId: int): (r: string)
    ensures (forall i :: 0 <= i < |columns| ==> columns[i].id != columnId) ==> r == "Unknown"
    ensures r == "Unknown" || exists c :: c in columns && c.id == columnId && c.name == r
  {
    var found := Commands.FindColumnById(columns, columnId);
    if found.Some? then found.value.name else "Unknown"
  }

  /** The eight values of a task's line, before escaping. */
  function RowValues(t: Task, columns: seq<Column>, stamp: int -> string): (r: seq<string>)
    ensures |r| == 8
  {
    [IntToString(t.id), t.title, t.description.GetOr(""), ColumnName(columns, t.columnId),
     stamp(t.createdAt), stamp(t.updatedAt), t.branchName.GetOr(""), t.prUrl.GetOr("")]
  }

  /** The values as written: only the title and the description escaped. */
  function Written(v: seq<string>): (r: seq<string>)
    requires |v| == 8
  {
    [v[0], EscapeField(v[1]), EscapeField(v[2])] + v[3..]
  }

  /** A task's line: the written values joined by commas. */
  function Row(t: Task, columns: seq<Column>, stamp: int -> string): string
  {
    JoinFields(Written(RowValues(t, columns, stamp)))
  }

  /** When the values left unescaped need no quoting, writing them is
      escaping them all. */
  lemma WrittenIsEscaped(v: seq<string>)
    requires |v| == 8
    requires forall i :: 0 <= i < 8 && i != 1 && i != 2 ==> !NeedsQuoting(v[i])
    ensures Written(v) == EscapeAll(v)
  {
    var w, e := Written(v), EscapeAll(v);
    forall i | 0 <= i < 8 ensures w[i] == e[i] {
      if i >= 3 {
        assert w[i] == v[i];
      }
    }
  }

  /** A decimal id never needs quoting. */
  lemma IdIsPlain(id: int)
    ensures !NeedsQuoting(IntToString(id))
  {
    var digits := NatToString(if id < 0 then -id else id);
    forall i | 0 <= i < |digits| ensures IsDigit(digits[i]) { }
    if id < 0 {
      assert IntToString(id) == "-" + digits;
      forall i | 0 <= i < |IntToString(id)|
        ensures IntToString(id)[i] != ',' && IntToString(id)[i] != '"' && IntToString(id)[i] != '\n'
      {
        if i > 0 {
          assert IntToString(id)[i] == digits[i - 1];
        }
      }
    } else {
      assert IntToString(id) == digits;
    }
  }

  /** Reading a line back gives the task's eight values, as long as the
      values written unescaped (column name, timestamps, branch and pull
      request) hold no comma, double quote or line break. */
  lemma RowRoundTrip(t: Task, columns: seq<Column>, stamp: int -> string)
    requires !NeedsQuoting(ColumnName(columns, t.columnId))
    requires !NeedsQuoting(stamp(t.createdAt)) && !NeedsQuoting(stamp(t.updatedAt))
    requires !NeedsQuoting(t.branchName.GetOr("")) && !NeedsQuoting(t.prUrl.GetOr(""))
    ensures ParseRecord(Row(t, columns, stamp)) == RowValues(t, columns, stamp)
  {
    var v := RowValues(t, columns, stamp);
    IdIsPlain(t.id);
    WrittenIsEscaped(v);
    RecordRoundTrip(v);
  }

  /** A branch named by `start` is written as it is without harm: it holds
      no comma, double quote or line break. */
  lemma BranchIsPlain(id: nat, title: string)
    ensures !NeedsQuoting(Branch.BranchName(id, title))
  {
    var digits := NatToString(id);
    var slug := Branch.Slug(title);
    var b := Branch.BranchName(id, title);
    Branch.SlugIsSlug(title);
    forall i | 0 <= i < |b| ensures b[i] != ',' && b[i] != '"' && b[i] != '\n' {
      if i < |Branch.Prefix| {
        assert b[i] == Branch.Prefix[i];
      } else if i < |Branch.Prefix| + |digits| {
        assert b[i] == digits[i - |Branch.Prefix|];
        assert IsDigit(digits[i - |Branch.Prefix|]);
      } else if i > |Branch.Prefix| + |digits| {
        assert b[i] == slug[i - |Branch.Prefix| - |digits| - 1];
        assert Branch.SlugChar(slug[i - |Branch.Prefix| - |digits| - 1]);
      }
    }
  }

  /** In a valid store every task's column is found, so the `Unknown`
      fallback never shows. */
  lemma KnownColumn(s: Store, id: int)
    requires Valid(s) && id in s.tasks
    ensures ColumnName(GetColumns(s), s.tasks[id].columnId) == Commands.ColumnOf(s, id).name
  {
    Commands.CurrentColumnFound(s, id);
  }

  /** One line per task, in the given order. */
  function Rows(tasks: seq<Task>, columns: seq<Column>, stamp: int -> string): (r: seq<string>)
    ensures |r| == |tasks|
    ensures forall i :: 0 <= i < |tasks| ==> r[i] == Row(tasks[i], columns, stamp)
  {
    seq(|tasks|, i requires 0 <= i < |tasks| => Row(tasks[i], columns, stamp))
  }

  /** `export_command` with the CSV format: the tasks as `get_tasks` lists
      them (by column, newest first), and the lines printed. */
  method ExportCsv(s: Store, stamp: int -> string) returns (tasks: seq<Task>, lines: seq<string>)
    requires Valid(s)
    ensures |lines| == |tasks| + 1 && lines[0] == Header
    ensures forall i :: 0 <= i < |tasks| ==> lines[i + 1] == Row(tasks[i], GetColumns(s), stamp)
    ensures forall i :: 0 <= i < |tasks| ==> tasks[i].id in s.tasks && s.tasks[tasks[i].id] == tasks[i]
    ensures forall k :: k in s.tasks ==> s.tasks[k] in tasks
    ensures forall i, j :: 0 <= i < j < |tasks| ==> tasks[i].id != tasks[j].id
    ensures forall i, j :: 0 <= i < j < |tasks| ==> tasks[i].columnId <= tasks[j].columnId
    ensures forall i, j :: 0 <= i < j < |tasks| && tasks[i].columnId == tasks[j].columnId ==>
      tasks[i].createdAt >= tasks[j].createdAt
  {
    tasks := GetTasks(s, None);
    lines := [Header] + Rows(tasks, GetColumns(s), stamp);
  }
}

=== FILE: github.dfy ===
/**
 * The GitHub side of `submit`: recognising a GitHub remote URL
 * (`extract_github_info`) and the URL the pull-request client answers
 * with (`GitHubClient::create_pull_request`).
 */
module GitHub {
  import opened Outcome
  import opened Text

  const SshPrefix := "git@github.com:"
  const HttpsPrefix := "https://github.com/"
  const GitSuffix := ".git"

  predicate EndsWith(s: string, suffix: string)
  {
    |suffix| <= |s| && s[|s| - |suffix|..] == suffix
  }

  /** `path.strip_suffix(".git").unwrap_or(path)`: removes one trailing `.git`. */
  function StripGitSuffix(path: string): (r: string)
    ensures EndsWith(path, GitSuffix) ==> path == r + GitSuffix
    ensures !EndsWith(path, GitSuffix) ==> r == path
  {
    if EndsWith(path, GitSuffix) then path[..|path| - |GitSuffix|] else path
  }

  /** The owner and repository of `owner/repo[.git]`: present only when the
      path left after stripping `.git` has exactly two `/`-separated parts. */
  function OwnerAndRepo(path: string): (r: Option<(string, string)>)
    ensures r.Some? <==> Count(StripGitSuffix(path), '/') == 1
    ensures r.Some? ==> '/' !in r.value.0 && '/' !in r.value.1
    ensures r.Some? ==> StripGitSuffix(path) == r.value.0 + "/" + r.value.1
  {
    var parts := Split(StripGitSuffix(path), '/');
    SplitJoin(StripGitSuffix(path), '/');
    if |parts| == 2 then Some((parts[0], parts[1])) else None
  }

  /** `extract_github_info`: SSH (`git@github.com:`) and HTTPS
      (`https://github.com/`) remotes only. */
  function ExtractGitHubInfo(url: string): (r: Option<(string, string)>)
    ensures !(SshPrefix <= url) && !(HttpsPrefix <= url) ==> r.None?
    ensures r.Some? ==> '/' !in r.value.0 && '/' !in r.value.1
    ensures r.Some? ==>
      var host := if SshPrefix <= url then SshPrefix else HttpsPrefix;
      var spelled := host + r.value.0 + "/" + r.value.1;
      url == spelled || url == spelled + GitSuffix
  {
    if SshPrefix <= url then
      Reassemble(SshPrefix, url);
      OwnerAndRepo(url[|SshPrefix|..])
    else if HttpsPrefix <= url then
      Reassemble(HttpsPrefix, url);
      OwnerAndRepo(url[|HttpsPrefix|..])
    else None
  }

  /** A recognised URL is the host followed by the owner, a slash, the
      repository and possibly `.git`. */
  lemma Reassemble(host: string, url: string)
    requires host <= url
    ensures var r := OwnerAndRepo(url[|host|..]);
      r.Some? ==> var spelled := host + r.value.0 + "/" + r.value.1;
        url == spelled || url == spelled + GitSuffix
  {
    var path := url[|host|..];
    assert url == host + path;
    var r := OwnerAndRepo(path);
    if r.Some? {
      var o, rp := r.value.0, r.value.1;
      var stripped := StripGitSuffix(path);
      assert stripped == o + "/" + rp;
      Concat4(host, o, "/", rp);
      if EndsWith(path, GitSuffix) {
        assert path == stripped + GitSuffix;
        assert url == host + stripped + GitSuffix;
      } else {
        assert path == stripped;
      }
    }
  }

  lemma Concat4(a: string, b: string, c: string, d: string)
    ensures a + (b + c + d) == a + b + c + d
  {
  }

  /** Behind either recognised host, the rest of the URL is read as the path. */
  lemma AfterHost(host: string, path: string)
    requires host == SshPrefix || host == HttpsPrefix
    ensures ExtractGitHubInfo(host + path) == OwnerAndRepo(path)
  {
    var url := host + path;
    assert url[|host|..] == path;
    assert host <= url;
    if host == HttpsPrefix {
      assert url[0] != SshPrefix[0];
    }
  }

  /** A path whose repository part does not end in `.git` does not end in
      it either. */
  lemma BareKeepsNoSuffix(owner: string, repo: string)
    requires '/' !in repo && !EndsWith(repo, GitSuffix)
    ensures !EndsWith(owner + "/" + repo, GitSuffix)
  {
    var bare := owner + "/" + repo;
    if |repo| < 4 && |bare| >= 4 {
      assert bare[|bare| - 4..][3 - |repo|] == '/';
    } else if |repo| >= 4 {
      assert bare[|bare| - 4..] == repo[|repo| - 4..];
    }
  }

  lemma OwnerSlashRepo(owner: string, repo: string, suffix: string)
    requires '/' !in owner && '/' !in repo
    requires suffix == GitSuffix || (suffix == [] && !EndsWith(repo, GitSuffix))
    ensures OwnerAndRepo(owner + "/" + repo + suffix) == Some((owner, repo))
  {
    var bare := owner + "/" + repo;
    var path := bare + suffix;
    if suffix == [] {
      assert path == bare;
      BareKeepsNoSuffix(owner, repo);
    } else {
      assert path[..|path| - 4] == bare;
    }
    assert StripGitSuffix(path) == bare;
    assert bare == owner + ['/'] + repo;
    SplitAtOnlySeparator(owner, repo, '/');
  }

  lemma ParsePath(host: string, owner: string, repo: string, suffix: string)
    requires host == SshPrefix || host == HttpsPrefix
    requires '/' !in owner && '/' !in repo
    requires suffix == GitSuffix || (suffix == [] && !EndsWith(repo, GitSuffix))
    ensures ExtractGitHubInfo(host + owner + "/" + repo + suffix) == Some((owner, repo))
  {
    var path := owner + "/" + repo + suffix;
    assert host + owner + "/" + repo + suffix == host + path;
    AfterHost(host, path);
    OwnerSlashRepo(owner, repo, suffix);
  }

  /** An SSH remote `git@github.com:owner/repo.git` parses to its owner and repository. */
  lemma SshRoundTrip(owner: string, repo: string)
    requires '/' !in owner && '/' !in repo
    ensures ExtractGitHubInfo(SshPrefix + owner + "/" + repo + GitSuffix) == Some((owner, repo))
  {
    ParsePath(SshPrefix, owner, repo, GitSuffix);
  }

  /** An HTTPS remote parses to its owner and repository, with `.git` ... */
  lemma HttpsRoundTrip(owner: string, repo: string)
    requires '/' !in owner && '/' !in repo
    ensures ExtractGitHubInfo(HttpsPrefix + owner + "/" + repo + GitSuffix) == Some((owner, repo))
  {
    ParsePath(HttpsPrefix, owner, repo, GitSuffix);
  }

  /** ... and without it, unless the repository name itself ends in `.git`,
      which is then taken for the suffix. */
  lemma HttpsRoundTripBare(owner: string, repo: string)
    requires '/' !in owner && '/' !in repo
    ensures !EndsWith(repo, GitSuffix) ==>
      ExtractGitHubInfo(HttpsPrefix + owner + "/" + repo) == Some((owner, repo))
    ensures EndsWith(repo, GitSuffix) ==>
      ExtractGitHubInfo(HttpsPrefix + owner + "/" + repo) == Some((owner, repo[..|repo| - 4]))
  {
    if EndsWith(repo, GitSuffix) {
      var r := repo[..|repo| - 4];
      assert repo == r + GitSuffix;
      assert HttpsPrefix + owner + "/" + repo == HttpsPrefix + owner + "/" + r + GitSuffix;
      assert '/' !in r by {
        forall i | 0 <= i < |r| ensures r[i] != '/' { assert r[i] == repo[i]; }
      }
      ParsePath(HttpsPrefix, owner, r, GitSuffix);
    } else {
      assert HttpsPrefix + owner + "/" + repo == HttpsPrefix + owner + "/" + repo + [];
      ParsePath(HttpsPrefix, owner, repo, []);
    }
  }

  /** Only one `.git` is removed: `owner/repo.git.git` names the repository `repo.git`. */
  lemma SuffixStrippedOnce(owner: string, repo: string)
    requires '/' !in owner && '/' !in repo
    ensures ExtractGitHubInfo(SshPrefix + owner + "/" + repo + GitSuffix + GitSuffix)
         == Some((owner, repo + GitSuffix))
  {
    assert '/' !in repo + GitSuffix;
    assert SshPrefix + owner + "/" + repo + GitSuffix + GitSuffix
        == SshPrefix + owner + "/" + (repo + GitSuffix) + GitSuffix;
    ParsePath(SshPrefix, owner, repo + GitSuffix, GitSuffix);
  }

  /** A path with more or fewer than one `/` is refused: `owner/repo/extra`
      and a bare `repo` both give `None`. */
  lemma WrongPartCount(host: string, path: string)
    requires host == SshPrefix || host == HttpsPrefix
    requires Count(StripGitSuffix(path), '/') != 1
    ensures ExtractGitHubInfo(host + path) == None
  {
    AfterHost(host, path);
  }

  /** Other hosts and schemes are not recognised. */
  lemma OtherRemotesRefused()
    ensures ExtractGitHubInfo("http://github.com/owner/repo") == None
    ensures ExtractGitHubInfo("ssh://git@github.com/owner/repo.git") == None
    ensures ExtractGitHubInfo("git@gitlab.com:owner/repo.git") == None
  {
    assert "http://github.com/owner/repo"[4] != HttpsPrefix[4];
    assert "ssh://git@github.com/owner/repo.git"[0] != SshPrefix[0];
    assert "git@gitlab.com:owner/repo.git"[7] != SshPrefix[7];
  }

  /** `https://github.com/{owner}/{repo}`, the base of every pull-request URL. */
  function RepoUrl(owner: string, repo: string): string
  {
    HttpsPrefix + owner + "/" + repo
  }

  /** The URL `create_pull_request` answers with. Without a token it is the
      compare page of `head` against `base`; with one it is a fixed pull
      request number, as the placeholder client never calls the API. */
  function CreatePullRequest(owner: string, repo: string, token: Option<string>,
                             title: string, body: string, head: string, base: string): (r: Result<string>)
    ensures r.Ok?
    ensures RepoUrl(owner, repo) + "/" <= r.value
    ensures token.None? ==> r.value == RepoUrl(owner, repo) + "/compare/" + base + "..." + head
    ensures token.Some? ==> r.value == RepoUrl(owner, repo) + "/pull/123"
  {
    if token.None? then
      Ok(HttpsPrefix + owner + "/" + repo + "/compare/" + base + "..." + head)
    else
      Ok(HttpsPrefix + owner + "/" + repo + "/pull/123")
  }

  /** The repository part of a pull-request URL names the remote it was
      opened for: re-reading it gives back the owner and repository. */
  lemma PullRequestUrlNamesRepo(owner: string, repo: string)
    requires '/' !in owner && '/' !in repo && !EndsWith(repo, GitSuffix)
    ensures ExtractGitHubInfo(RepoUrl(owner, repo)) == Some((owner, repo))
  {
    HttpsRoundTripBare(owner, repo);
  }

  /** The review-request capability `submit` talks to: the placeholder
      client of the source, or a networked client whose answer is given
      (`None` when the request failed). */
  datatype ReviewClient =
    | Placeholder(token: Option<string>)
    | Networked(answer: Option<string>)

  /** Asks the client to open a pull request; `None` is a failed request. */
  function OpenPullRequest(client: ReviewClient, owner: string, repo: string,
                           title: string, body: string, head: string, base: string): (r: Option<string>)
    ensures client.Placeholder? ==> r.Some? && RepoUrl(owner, repo) + "/" <= r.value
    ensures client.Networked? ==> r == client.answer
  {
    match client
    case Placeholder(token) =>
      Some(CreatePullRequest(owner, repo, token, title, body, head, base).value)
    case Networked(answer) => answer
  }
}

=== FILE: outcome.dfy ===
/**
 * Shared result types of the project board: an optional value and the
 * errors a command can end with.
 */
module Outcome {

  /** Rust's `Option<T>`. */
  datatype Option<+T> = None | Some(value: T) {

    /** `unwrap_or`: the value if present, otherwise the default. */
    function GetOr(default: T): T {
      match this
      case Some(v) => v
      case None => default
    }
  }

  /** Rust's `Result<T, anyhow::Error>`, with the error kinds the commands raise. */
  datatype Result<+T> = Ok(value: T) | Err(error: Error)

  /** The git operation a failure came from. */
  datatype GitStep =
    | Discover      // `GitRepo::open`: the working directory is not inside a repository
    | CreateBranch
    | Checkout
    | Status        // `has_staged_changes`
    | Commit
    | Push
    | RemoteLookup  // `get_remote_url`: the origin URL is not valid UTF-8

  /** The ways a command invocation ends unsuccessfully. */
  datatype Error =
    | NotInitialized                 // no `.projectboard/board.sqlite`
    | AlreadyInitialized             // `init` in an initialized repository
    | GitFailure(step: GitStep)
    | TaskNotFound(taskId: int)
    | ColumnNotFound(name: string)
    | CurrentColumnNotFound          // `move`: the task's own column row is missing
    | IdeaNotFound(ideaId: int)
    | NoBranch(taskId: int)          // `submit` on a task that was never started
}

=== FILE: sorting.dfy ===
/**
 * Ordering of query results. The store's `ORDER BY` clauses are modelled
 * as an insertion sort over a total preorder `before(a, b)` ("a may come
 * before b"); rows that compare equal may appear in either order, as SQL
 * leaves ties unordered.
 */
module Sorting {

  ghost predicate TotalPreorder<T(!new)>(before: (T, T) -> bool)
  {
    && (forall a, b :: before(a, b) || before(b, a))
    && (forall a, b, c :: before(a, b) && before(b, c) ==> before(a, c))
  }

  predicate Sorted<T>(s: seq<T>, before: (T, T) -> bool)
  {
    forall i, j :: 0 <= i < j < |s| ==> before(s[i], s[j])
  }

  /** No element occurs twice. */
  predicate Distinct<T(==)>(s: seq<T>)
  {
    forall i, j :: 0 <= i < j < |s| ==> s[i] != s[j]
  }

  /** Inserts `x` into the sorted `s` in front of the first element it may precede. */
  function Insert<T(!new)>(x: T, s: seq<T>, before: (T, T) -> bool): (r: seq<T>)
    requires TotalPreorder(before)
    requires Sorted(s, before)
    ensures Sorted(r, before)
    ensures multiset(r) == multiset(s) + multiset{x}
    ensures |r| == |s| + 1
  {
    if s == [] || before(x, s[0]) then
      [x] + s
    else
      var rest := Insert(x, s[1..], before);
      assert s == [s[0]] + s[1..];
      forall j | 0 <= j < |rest|
        ensures before(s[0], rest[j])
      {
        assert rest[j] in multiset(rest);
        if rest[j] != x {
          assert rest[j] in multiset(s[1..]);
          var k :| 0 <= k < |s[1..]| && s[1..][k] == rest[j];
          assert s[k + 1] == rest[j];
        }
      }
      [s[0]] + rest
  }

  /** Inserting an element not yet present keeps the elements distinct. */
  lemma {:induction false} InsertKeepsDistinct<T(!new)>(x: T, s: seq<T>, before: (T, T) -> bool)
    requires TotalPreorder(before)
    requires Sorted(s, before)
    requires Distinct(s) && x !in s
    ensures Distinct(Insert(x, s, before))
  {
    if s != [] && !before(x, s[0]) {
      InsertKeepsDistinct(x, s[1..], before);
      var rest := Insert(x, s[1..], before);
      assert s == [s[0]] + s[1..];
      assert s[0] !in multiset(s[1..]);
      assert s[0] != x;
      assert s[0] !in multiset(rest);
    }
  }

  /** Insertion sort. */
  function Sort<T(!new)>(s: seq<T>, before: (T, T) -> bool): (r: seq<T>)
    requires TotalPreorder(before)
    ensures Sorted(r, before)
    ensures multiset(r) == multiset(s)
    ensures |r| == |s|
  {
    if s == [] then []
    else
      assert s == [s[0]] + s[1..];
      Insert(s[0], Sort(s[1..], before), before)
  }

  /** Sorting input that is already in order leaves it as it is. */
  lemma {:induction false} SortSorted<T(!new)>(s: seq<T>, before: (T, T) -> bool)
    requires TotalPreorder(before)
    requires Sorted(s, before)
    ensures Sort(s, before) == s
  {
    if s != [] {
      SortSorted(s[1..], before);
      assert s == [s[0]] + s[1..];
    }
  }
}

=== FILE: text.dfy ===
/**
 * Character and string helpers shared by the branch-name, CSV and
 * remote-URL logic: ASCII character classes, decimal printing and
 * parsing, searching and splitting on one character.
 */
module Text {

  predicate IsUpper(c: char) { 'A' <= c <= 'Z' }

  predicate IsLower(c: char) { 'a' <= c <= 'z' }

  predicate IsDigit(c: char) { '0' <= c <= '9' }

  /** ASCII reading of Rust's `char::is_alphanumeric`. */
  predicate IsAlphanumeric(c: char) { IsUpper(c) || IsLower(c) || IsDigit(c) }

  /** ASCII reading of Rust's `to_lowercase` on one character. */
  function ToLower(c: char): (r: char)
    ensures IsUpper(c) ==> IsLower(r)
    ensures !IsUpper(c) ==> r == c
  {
    if IsUpper(c) then (c as int + 32) as char else c
  }

  /** `str::to_lowercase` on an ASCII string. */
  function Lower(s: string): (r: string)
    ensures |r| == |s|
    ensures forall i :: 0 <= i < |s| ==> r[i] == ToLower(s[i])
  {
    seq(|s|, i requires 0 <= i < |s| => ToLower(s[i]))
  }

  /** `str::replace(from, to)` for single characters. */
  function ReplaceChar(s: string, from: char, to: char): (r: string)
    ensures |r| == |s|
    ensures forall i :: 0 <= i < |s| ==> r[i] == (if s[i] == from then to else s[i])
  {
    seq(|s|, i requires 0 <= i < |s| => if s[i] == from then to else s[i])
  }

  /** Position of the first `c` in `s`, or `|s|` when there is none. */
  function IndexOf(s: string, c: char): (k: nat)
    ensures k <= |s|
    ensures forall i :: 0 <= i < k ==> s[i] != c
    ensures k < |s| ==> s[k] == c
  {
    if s == [] then 0 else if s[0] == c then 0 else 1 + IndexOf(s[1..], c)
  }

  /** Number of occurrences of `c` in `s`. */
  function Count(s: string, c: char): nat
  {
    if s == [] then 0 else (if s[0] == c then 1 else 0) + Count(s[1..], c)
  }

  lemma {:induction false} CountZero(s: string, c: char)
    ensures Count(s, c) == 0 <==> c !in s
  {
    if s != [] {
      CountZero(s[1..], c);
      assert s == [s[0]] + s[1..];
    }
  }

  lemma {:induction false} CountAppend(a: string, b: string, c: char)
    ensures Count(a + b, c) == Count(a, c) + Count(b, c)
  {
    if a == [] {
      assert a + b == b;
    } else {
      assert (a + b)[1..] == a[1..] + b;
      CountAppend(a[1..], b, c);
    }
  }

  lemma {:induction false} IndexOfAppend(a: string, b: string, c: char)
    requires c !in a
    ensures IndexOf(a + b, c) == |a| + IndexOf(b, c)
  {
    if a == [] {
      assert a + b == b;
    } else {
      assert (a + b)[1..] == a[1..] + b;
      IndexOfAppend(a[1..], b, c);
    }
  }

  /** `str::split(sep)`: the pieces between separators, always at least one. */
  function Split(s: string, sep: char): (parts: seq<string>)
    ensures |parts| == Count(s, sep) + 1
    ensures forall i :: 0 <= i < |parts| ==> sep !in parts[i]
    decreases |s|
  {
    var k := IndexOf(s, sep);
    if k == |s| then
      CountZero(s, sep);
      [s]
    else
      assert s == s[..k] + s[k..];
      assert s[k..] == [sep] + s[k + 1..];
      CountAppend(s[..k], s[k..], sep);
      CountAppend([sep], s[k + 1..], sep);
      CountZero(s[..k], sep);
      [s[..k]] + Split(s[k + 1..], sep)
  }

  /** Joins pieces with a separator; the inverse of `Split`. */
  function JoinWith(parts: seq<string>, sep: char): string
    requires |parts| >= 1
  {
    if |parts| == 1 then parts[0] else parts[0] + [sep] + JoinWith(parts[1..], sep)
  }

  /** Splitting and re-joining on the same separator gives back the string. */
  lemma {:induction false} SplitJoin(s: string, sep: char)
    ensures JoinWith(Split(s, sep), sep) == s
    decreases |s|
  {
    var k := IndexOf(s, sep);
    if k < |s| {
      SplitJoin(s[k + 1..], sep);
      assert s == s[..k] + [sep] + s[k + 1..];
    }
  }

  /** A string with exactly one separator splits into the two sides of it. */
  lemma SplitAtOnlySeparator(a: string, b: string, sep: char)
    requires sep !in a && sep !in b
    ensures Split(a + [sep] + b, sep) == [a, b]
  {
    var s := a + [sep] + b;
    IndexOfAppend(a, [sep] + b, sep);
    assert a + ([sep] + b) == s;
    assert s[..|a|] == a;
    assert s[|a| + 1..] == b;
    assert IndexOf(b, sep) == |b|;
  }

  function DigitChar(d: nat): (c: char)
    requires d < 10
    ensures IsDigit(c)
  {
    ('0' as int + d) as char
  }

  function DigitValue(c: char): (d: nat)
    requires IsDigit(c)
    ensures d < 10
  {
    c as int - '0' as int
  }

  predicate AllDigits(s: string)
  {
    forall i :: 0 <= i < |s| ==> IsDigit(s[i])
  }

  /** Decimal rendering of a natural number, as `format!("{}", n)`. */
  function NatToString(n: nat): (r: string)
    ensures |r| >= 1
    ensures AllDigits(r)
    decreases n
  {
    if n < 10 then [DigitChar(n)] else NatToString(n / 10) + [DigitChar(n % 10)]
  }

  /** The value of a string of decimal digits. */
  function ParseNat(s: string): nat
    requires AllDigits(s)
  {
    if s == [] then 0 else ParseNat(s[..|s| - 1]) * 10 + DigitValue(s[|s| - 1])
  }

  /** Printing a number in decimal and reading it back gives the number. */
  lemma {:induction false} ParseNatToString(n: nat)
    ensures ParseNat(NatToString(n)) == n
    decreases n
  {
    var s := NatToString(n);
    if n >= 10 {
      assert s[..|s| - 1] == NatToString(n / 10);
      ParseNatToString(n / 10);
    }
  }

  /** Decimal rendering of an integer id, with a leading `-` when negative. */
  function IntToString(i: int): (r: string)
    ensures |r| >= 1
    ensures 0 <= i ==> AllDigits(r)
  {
    if i < 0 then "-" + NatToString(-i) else NatToString(i)
  }
}
